=== FILE: README.md ===
# AI To-Do Manager: a Dafny model of its task logic

This project models the small sequential logic inside the AI To-Do Manager, a
React client with an Express/MongoDB server and an AI assistant. The model
covers:

- the due-date badge (`getDueDateStatus`);
- the sanitiser that turns the assistant's replies into tasks: JSON-array
  extraction, due-date repair, the future-only filter, the line-based
  fallback parser, recommendation trimming and the fixed fallback records;
- the task-list view in `App.tsx`: categories, the overdue and urgent alerts,
  the search/priority/category/completion filter, the completion-then-priority
  sort, and the mapping of generated tasks into drafts;
- the task editor's state updates in `TaskForm.tsx`: initialisation, submit,
  tags, subtasks, and the merges of a breakdown and of improvements;
- the client task list in `useTasks.ts`: prepend, replace-by-id, delete-by-id
  and the reset on sign-out, each applied only after the server succeeds;
- the statistics panel's counters and its rounded completion rate;
- the server's request logic as a state machine over an in-memory store of
  accounts and task documents: token check, register, login, profile, list,
  create, update, delete, toggle and subtask toggle.

All instants are integer milliseconds. Local time is taken to be UTC, so "the
start of today" is `now` rounded down to a multiple of 86 400 000. The
following are parameters of the model:

- `JSON.parse`, as a function returning `Option`;
- bcrypt's hash and compare;
- JWT sign and verify;
- the clock;
- `crypto.randomUUID`, as a `newId` function.

A database id is the decimal text of a key drawn from a counter in the
store. Text that is not a canonical decimal makes the id cast fail, which the
server reports as a 500.

Files, one module each:

| file | module | contents |
|---|---|---|
| wrappers.dfy | Wrappers | `Option` |
| seqs.dfy | Seqs | `Filter`, subsequences, a stable sort by key, first occurrences |
| text.dfy | Text | JavaScript `trim`, `split`/`join`, `includes`, ASCII `toLowerCase`, `/^\d+\./`, `parseInt` and decimal ids |
| types.dfy | Types | `Priority`, `Subtask`, `Task`, `TaskDraft`, `Instant` (a time value or Invalid Date), JavaScript `\|\|` on strings |
| due_date.dfy | DueDate | `getDueDateStatus` |
| gemini.dfy | Gemini | the reply sanitiser and fallbacks |
| app_view.dfy | AppView | the task-list view |
| task_form.dfy | TaskForm | the task editor |
| task_list.dfy | TaskList | the client task list hook |
| task_stats.dfy | TaskStats | the statistics panel |
| server.dfy | Server | the HTTP handlers over the store |
| flows.dfy | Flows | the editor's record sent to the server, end to end |

The code differs from what its comments and the product description suggest
in four places. The model follows the code each time:

- A due instant exactly equal to now is "due soon". Any later instant
  within 24 hours is "due tomorrow", and "due today" is never produced.
- A generated task with no priority gets a replacement date as a medium
  task, not as a low one.
- The JSON extraction is greedy. It takes everything from the first `[` to
  the last `]`, not a balanced array.
- A numbered line such as `1. Buy milk` is dropped whole by the fallback
  parser. The number is not stripped.

## Model

| member | source | states |
|---|---|---|
| DueDate.CeilDiv | src/hooks/useRealTimeDate.ts:20-21 | `Math.ceil(a / b)` is the least integer q with a <= b·q |
| DueDate.DayCount | src/hooks/useRealTimeDate.ts:20-21 | the rounded-up day count is <= 0 exactly for non-positive distances, 0 exactly within the past 24 hours, 1 exactly within the next 24 hours, 2..7 for the rest of the week, and above 7 beyond |
| DueDate.ClassifyDiff | src/hooks/useRealTimeDate.ts:17-71 | each distance gets exactly one status. Overdue iff negative; due-soon iff zero; due-tomorrow iff within (0, 1 day]; due-this-week iff within (1, 7 days]; future beyond; due-today never. Urgency is high, medium or low according to the status. Each status carries its own label: "Overdue today" iff less than a day late, otherwise "<n>d overdue" with n the whole days late; "Due soon"; "Due tomorrow"; "<n> days left" with 2 <= n <= 7 the days rounded up; the locale date for the future |
| DueDate.Classify | src/hooks/useRealTimeDate.ts:17-71 | an unparsable due date is always "future" with low urgency and the locale text; a real one is classified by its distance from now |
| DueDate.ClassifyShift | src/hooks/useRealTimeDate.ts:19-21 | moving both instants by the same amount leaves the badge unchanged |
| Gemini.StartOfDay | src/services/geminiService.ts:103-104 | the start of today is a day boundary at or before now and less than a day before it |
| Gemini.ExtractBracketed | src/services/geminiService.ts:96-97 | the match exists iff some `[` comes before some `]`, and it spans from the first `[` to the last `]` |
| Gemini.ReplacementOffset | src/services/geminiService.ts:108-122 | a replacement is 1 to 21 days ahead. High priority gives 1 + index mod 2 days, medium or absent gives 3 + index mod 5, and anything else gives 7 + index mod 15 |
| Gemini.NormaliseAll | src/services/geminiService.ts:99-142 | repair succeeds iff every element is an object. It keeps length and order, and changes nothing but `dueDate`. A date 1 to 365 days ahead is kept, an unparsable one is kept, and a missing or out-of-range one is replaced by today plus the priority offset |
| Gemini.FinalFilter | src/services/geminiService.ts:145-153 | keeps, in order, exactly the undated tasks and those dated after the start of today, each as many times as in the input |
| Gemini.FinalFilterKeepsWindow | src/services/geminiService.ts:145-153 | tasks all dated inside the one-year window pass the filter unchanged |
| Gemini.NormalisedDates | src/services/geminiService.ts:101-153 | after repair each task lies inside the window or carries the Invalid Date it arrived with, so the final filter removes exactly the tasks with unparsable dates |
| Gemini.TrimmedLines | src/services/geminiService.ts:171-172 | one trimmed entry per newline-separated line, in order |
| Gemini.FallbackLines | src/services/geminiService.ts:171-173 | the candidate lines are the trimmed non-empty lines not starting with digits and a dot, in their original order and each as often as in the text |
| Gemini.FallbackTaskAt | src/services/geminiService.ts:180-206 | the task at position 0..3 has the line as title. Its priority is high for 0 and 1 and medium for 2 and 3, and it is due in 1, 2, 5 or 6 days. It has the fixed description, category "AI Generated", 30 minutes, tag "ai-generated" and no subtasks |
| Gemini.ParseSimpleTasks | src/services/geminiService.ts:170-217 | one task for a simple request (under 50 UTF-16 code units, no " and ", no comma), otherwise min(lines, 4). Task i is the fallback task of candidate line i, and all of them survive the future-only filter |
| Gemini.FallbackTasks | src/services/geminiService.ts:178-216 | the selected line at position i becomes fallback task i, due inside the window, and the future-only filter keeps every one |
| Gemini.GenerateTasks | src/services/geminiService.ts:93-162 | every task returned is due after today and within a year. A reply without a bracketed span goes to the fallback parser. When the span parses and every item can be repaired, the result is the repaired items after the date filter; when it does not parse or an item cannot be repaired, the fallback parser runs |
| Gemini.GenerateTasksKeepsDatedReply | src/services/geminiService.ts:95-153 | a reply whose bracketed span parses to objects all dated inside the window returns exactly their tasks, in order |
| Gemini.ExtractSurrounded | src/services/geminiService.ts:96 | a bracketed body with no opening bracket before it and no closing bracket after it is what the greedy match finds |
| Gemini.Recommendations | src/services/geminiService.ts:267-270 | at most three lines, each trimmed and non-empty, the first ones in reply order |
| Gemini.SmartBreakdown | src/services/geminiService.ts:331-348 | a `{...}` span that parses is returned as parsed. A reply without such a span, or whose span does not parse, gives the one-step plan: 60 minutes, medium, "General", tag "breakdown" |
| Gemini.SmartBreakdownOfWrapped | src/services/geminiService.ts:332-336 | an object reply wrapped in brace-free prose is returned as the parser reads it |
| Gemini.SuggestImprovements | src/services/geminiService.ts:406-421 | a `{...}` span that parses is returned as parsed. A reply without such a span, or whose span does not parse, returns the title and description unchanged with the suggestions "Consider adding specific deadlines", "Break into smaller steps" and "Define success criteria" |
| Gemini.SuggestImprovementsOfWrapped | src/services/geminiService.ts:407-411 | an object reply wrapped in brace-free prose is returned as the parser reads it |
| AppView.Categories | src/App.tsx:44 | the distinct non-empty categories, each listed once, in order of first occurrence |
| AppView.OverdueTasks | src/App.tsx:47-51 | exactly the incomplete tasks whose due instant is before now, in order, each as many times as in the list |
| AppView.UrgentTasks | src/App.tsx:53-57 | exactly the incomplete tasks due at this very instant, in order, each as many times as in the list |
| AppView.UrgentExactlyNow | src/App.tsx:53-57 | a task is urgent iff it is open and its due instant is the current millisecond |
| AppView.AlertsDisjoint | src/App.tsx:47-57 | no task is both overdue and urgent |
| AppView.FilteredTasks | src/App.tsx:60-70 | an order-preserving subsequence of titled tasks, each matching the search in title or description. Each satisfies every non-"all" priority and category filter and is open when completed tasks are hidden. Every task passing all tests is kept, as many times as it occurs |
| AppView.InitialFilterShowsTitled | src/App.tsx:60-70 | with an empty search and every filter open, exactly the titled tasks are shown |
| AppView.HideCompleted | src/App.tsx:67 | hiding completed tasks removes exactly the completed ones from the view |
| AppView.CompareAgreesWithKey | src/App.tsx:73-82 | the comparator's sign is the order of the key (completion first, then priority descending) |
| AppView.SortedTasks | src/App.tsx:73-82 | a permutation of the filtered list with every open task before every completed one, and priority non-increasing within each group |
| AppView.SortedTasksStable | src/App.tsx:73-82 | tasks the comparator calls equal keep their relative order |
| AppView.DraftOf | src/App.tsx:127-142 | a generated task becomes an open draft with its title. Description and notes default to "", priority to "medium" and category to "AI Generated", none of them empty. Tags default to none. It has its date when parsable and none otherwise, keeps its estimate or has it unset, and subtask title j becomes an open subtask with id `newId(position, j)` |
| AppView.DraftsFrom | src/App.tsx:112-148 | the drafts of the elements that are objects with a truthy title (plain strings skipped), in order, the element at position p drafted at position `start + p` |
| AppView.Numbered | src/App.tsx:112 | each element paired with its position, in order |
| AppView.DraftEntries | src/App.tsx:127-142 | one draft per numbered entry, made from the entry's object at the entry's position |
| AppView.TitledCount | src/App.tsx:112-124 | there are as many titled entries as titled objects in the batch |
| AppView.HandleTasksGenerated | src/App.tsx:106-149 | non-array input adds nothing. Otherwise the drafts are those of the titled objects, in order, each made at its position in the batch, one per titled object; each is open and titled |
| AppView.NoObjectsNoDrafts | src/App.tsx:113-124 | an array holding no objects yields no drafts, so the legacy string branch never runs |
| AppView.GeneratedDraftsInWindow | src/App.tsx:132 | tasks the sanitiser returns become drafts due after today and within a year |
| TaskForm.InitForm | src/components/TaskForm.tsx:39-68 | a new form is empty with priority medium. An edited task gives its tags, subtasks and due day, and its estimate is blank iff absent or 0. Recommendations are cleared |
| TaskForm.Submit | src/components/TaskForm.tsx:70-79 | title, description, completion, category, tags, subtasks and notes are the form's. An empty date gives no date and a day gives its UTC midnight. The priority text names the chosen priority. An empty time gives no estimate, a time with leading digits gives their value, and any other text gives NaN |
| TaskForm.SubmitUnchanged | src/components/TaskForm.tsx:39-79 | opening a task and saving it unchanged returns its fields, except that the due date moves to midnight UTC of its day and an absent or 0 estimate becomes unset |
| TaskForm.AddTag | src/components/TaskForm.tsx:81-88 | only the tags change. A blank or present tag changes nothing; otherwise the trimmed tag is appended at the end |
| TaskForm.AddTagIdempotent | src/components/TaskForm.tsx:81-88 | adding the same tag twice is the same as once |
| TaskForm.AddTagKeepsDistinct | src/components/TaskForm.tsx:82 | tags without duplicates stay without duplicates |
| TaskForm.RemoveTag | src/components/TaskForm.tsx:90-95 | every copy of the tag leaves; the other tags stay in order, each as many times as before |
| TaskForm.RemoveAddedTag | src/components/TaskForm.tsx:81-95 | removing a tag just added restores the form |
| TaskForm.AddSubtask | src/components/TaskForm.tsx:97-107 | exactly one subtask is appended, with the fresh id, an empty title and not completed |
| TaskForm.RemoveSubtask | src/components/TaskForm.tsx:118-123 | exactly the subtasks with that id leave; the rest stay in order, each as many times as before |
| TaskForm.RemoveAddedSubtask | src/components/TaskForm.tsx:97-123 | removing a subtask just added restores the form |
| TaskForm.Patch | src/components/TaskForm.tsx:113 | supplied fields overwrite and missing ones keep their values |
| TaskForm.UpdateSubtask | src/components/TaskForm.tsx:109-116 | the length is kept, subtasks with other ids are untouched, and matching ones take the update |
| TaskForm.GetRecommendations | src/components/TaskForm.tsx:125-141 | a blank title or a failed request changes nothing; the form data never changes; at most three recommendations are shown |
| TaskForm.MergeTags | src/components/TaskForm.tsx:159 | the old tags stay as a prefix. The suffix is the incoming tags not among the old ones, in incoming order and as many times as they come; the result holds exactly the old and the incoming tags |
| TaskForm.NewSubtasks | src/components/TaskForm.tsx:162-166 | each step title becomes an open subtask with a fresh id, in order |
| TaskForm.MergeBreakdown | src/components/TaskForm.tsx:154-168 | title, description, completion, due day and notes are kept. Priority and category are replaced, and the estimate is replaced by text that parses back to the breakdown's minutes. Tags are the merge of the old and the incoming ones, and the steps are appended as open subtasks |
| TaskForm.MergeBreakdownDistinct | src/components/TaskForm.tsx:159 | distinct tags stay distinct after the merge |
| TaskForm.GenerateSmartBreakdown | src/components/TaskForm.tsx:143-174 | a blank title or a failed request changes nothing. A reply is merged into the form as the service reads it. Title, description, old tags and old subtasks always survive |
| TaskForm.BreakdownReplyMerged | src/components/TaskForm.tsx:143-174 | a wrapped breakdown reply sets priority, category and the estimate text, adds the new tags, and appends one open subtask per suggested step |
| TaskForm.SuggestImprovements | src/components/TaskForm.tsx:176-200 | a blank title or a failed request changes nothing. Otherwise only title and description change in the form, to the improved ones, and the suggestions are shown |
| TaskForm.ImprovementsReplyApplied | src/components/TaskForm.tsx:176-200 | a wrapped improvements reply replaces exactly the title and description and shows its suggestions |
| TaskForm.SuggestImprovementsFallback | src/components/TaskForm.tsx:176-200 | a reply without a JSON object leaves the form as it was and shows "Consider adding specific deadlines", "Break into smaller steps" and "Define success criteria" |
| TaskList.ReplaceMatching | src/hooks/useTasks.ts:46-50 | the length is kept; tasks whose `_id` or `id` matches become the new record, and others are untouched |
| TaskList.ReplaceAbsent | src/hooks/useTasks.ts:46-50 | replacing under an id no task has changes nothing |
| TaskList.OnAuthChange | src/hooks/useTasks.ts:12-30 | signed out gives the empty list; signed in gives the fetched list, or the current one when the fetch fails |
| TaskList.AddTask | src/hooks/useTasks.ts:32-41 | on success the created task is prepended and the old list is the tail; on failure the list is unchanged and the error is passed on |
| TaskList.ReplaceAction | src/hooks/useTasks.ts:43-94 | update, toggle and subtask toggle replace every matching task on success, and change nothing on failure |
| TaskList.DeleteTask | src/hooks/useTasks.ts:58-66 | on success exactly the matching tasks leave and the rest keep their order and their number of copies; on failure nothing changes |
| TaskList.DeleteAdded | src/hooks/useTasks.ts:32-66 | deleting a just-created task under its unique id restores the list |
| TaskStats.CompletedCount | src/components/TaskStats.tsx:10 | at most the total; 0 iff no task is done; the total iff all are |
| TaskStats.PendingCount | src/components/TaskStats.tsx:11 | completed plus pending is the total, and pending counts the open tasks |
| TaskStats.PartitionCount | src/components/TaskStats.tsx:10-11 | done and open tasks together are all the tasks |
| TaskStats.RoundedPercent | src/components/TaskStats.tsx:12 | the nearest integer to 100·c/n with halves rounded up, 0 for no tasks. It lies within 0..100, is 100 when all are done and 0 when none are |
| TaskStats.RoundedPercentMonotone | src/components/TaskStats.tsx:12 | more completed tasks never lower the rate |
| TaskStats.CompletionRate | src/components/TaskStats.tsx:12 | the panel's rate is the rounded percentage of completed tasks, 0 for an empty list |
| TaskStats.HighPriorityPending | src/components/TaskStats.tsx:14 | the number of high-priority tasks among the open ones: at most the pending count, and 0 iff no open task has high priority |
| TaskStats.HighPriorityPartition | src/components/TaskStats.tsx:11-14 | the open tasks split into the high-priority ones and the rest |
| Server.EmptyValid | server/index.js:28-57 | the empty store satisfies the store invariant |
| Server.BearerToken | server/index.js:64-65 | a token is the second space-separated word of the header; a missing or empty header gives none |
| Server.BearerTokenOf | server/index.js:65 | `Bearer <token>` yields the token |
| Server.Authenticate | server/index.js:63-78 | no token gives 401 "Access token required"; a token that fails verification gives 403; otherwise the request carries the verified claims |
| Server.FindEmail | server/index.js:93 | finds an account with the email, or reports that none has it |
| Server.Register | server/index.js:83-115 | a missing field gives 400 "All fields are required". A taken email gives 400 "User already exists" with the store unchanged. Three truthy fields and a fresh email give 201. The store changes iff 201, which appends one account with the hashed password and a fresh key and returns a session |
| Server.Login | server/index.js:118-146 | missing fields give 400. Success needs an account with the email whose hash checks. An unknown email gives 400 "Invalid credentials". Every failure is a 400 |
| Server.EmailsUnique | server/index.js:29 | in a valid store the account found by email is the only one with it |
| Server.LoginFailuresAlike | server/index.js:122-134 | an unknown email and a wrong password get the identical answer |
| Server.LoginComplete | server/index.js:122-141 | in a valid store the right password for a registered email logs in as that account |
| Server.LoginAfterRegister | server/index.js:83-146 | an account just registered can log in with its password |
| Server.Profile | server/index.js:149-159 | a malformed id gives 500. 200 iff an account has the token's id, and the body is that account's public view and creation time; a well-formed id with no account gives 404 "User not found" |
| Server.ListTasks | server/index.js:164-171 | exactly the requester's tasks, as a multiset, ordered by creation time, newest first |
| Server.NewestFirst | server/index.js:166 | the sorted list holds only tasks whose `userId` is the requester, each created no earlier than the next |
| Server.FindOwned | server/index.js:219 | finds the document with the id owned by the requester, or reports that none is |
| Server.Build | server/index.js:36-57 | validation passes iff the priority (default medium) is one of the three, the date parses and every subtask has an id and a title. The task is then owned by the requester and open. A truthy priority is the one named, otherwise medium. A sent date is stored and an absent one stays absent. A non-zero estimate is stored and 0 is dropped. Description "", category "General", notes "", tags [] and subtasks [] are the defaults |
| Server.CreateTask | server/index.js:174-210 | no title gives 400 with the store unchanged. 201 iff the document validates, and it is appended under a fresh key; every other answer leaves the store unchanged |
| Server.Apply | server/index.js:218-222 | every supplied field replaces the stored one and every absent one is kept; a `null` estimate clears the stored one. Ids, owner and creation time are kept and the modification time is stamped |
| Server.Locate | server/index.js:218-226 | a found document is owned by the requester. With both ids well formed, a document is found iff one has the key and the owner, and otherwise the answer is 404 "Task not found"; a malformed id gives 500 |
| Server.LocateComplete | server/index.js:218-226 | the requester's own document with that id is always found |
| Server.UpdateTask | server/index.js:213-232 | an absent or foreign task gives Locate's 404 with the store unchanged. A located task with a valid or absent date gives 200, and only the located document takes the patch |
| Server.DeleteTask | server/index.js:235-249 | an absent or foreign task gives Locate's 404 with the store unchanged. A located task gives 200, and exactly that document leaves |
| Server.ToggleTask | server/index.js:252-269 | an absent or foreign task gives Locate's 404, and a document failing `save` validation (empty title, subtask without id or title) gives 500, both with the store unchanged. On 200 the located document's completion is negated, nothing else but its time changes, and the saved task is the answer |
| Server.FindSubtask | server/index.js:281 | finds the first subtask with the id, or reports that none has it |
| Server.FlipSubtask | server/index.js:286-287 | only that subtask's completion is negated, and the task's time is stamped |
| Server.ToggleSubtask | server/index.js:272-294 | an absent or foreign task gives Locate's 404 and a missing subtask gives 404, and a document failing `save` validation gives 500, each with the store unchanged. On 200 the first matching subtask is flipped and the saved task is the answer |
| Server.Handle | server/index.js:63-294 | every protected route answers 401 or 403 before its handler when the token fails; login, profile and list never change the store |
| Server.Route | server/index.js:149-294 | a protected route that answers with anything but 200 or 201 leaves the store as it was; profile and list never change it |
| Server.HandleKeepsValid | server/index.js:83-294 | every request keeps the store invariant: distinct keys, unique emails, owned documents |
| Server.RegisterKeepsValid | server/index.js:83-115 | registering keeps the store invariant |
| Server.CreateKeepsValid | server/index.js:174-210 | creating keeps the store invariant |
| Server.ReplaceKeepsValid | server/index.js:218-222 | replacing a document's task with the same id and owner keeps the invariant |
| Server.UpdateKeepsValid | server/index.js:213-232 | updating keeps the store invariant |
| Server.ToggleKeepsValid | server/index.js:252-269 | toggling keeps the store invariant |
| Server.ToggleSubtaskKeepsValid | server/index.js:272-294 | toggling a subtask keeps the store invariant |
| Server.DeleteRouteKeepsValid | server/index.js:235-249 | deleting keeps the store invariant |
| Server.DeleteKeepsValid | server/index.js:239 | removing one document keeps the invariant |
| Server.OthersUntouched | server/index.js:213-294 | no request removes a document the requester does not own |
| Server.ToggleTwice | server/index.js:252-269 | toggling twice restores the task except for its modification time |
| Flows.CreateBody | src/components/TaskForm.tsx:72-76 | every draft field travels. A date is sent iff the draft has one, and the estimate is sent iff it is a number |
| Flows.UpdateBody | src/components/TaskForm.tsx:72-76 | every draft field travels and a date is sent iff the draft has one. An unset estimate is left out, a NaN one is sent as `null`, and a number is sent as itself |
| Flows.EmptiedDateKeepsDueDate | server/index.js:218-222 | saving a task with its date field emptied leaves the stored due date as it was |
| Flows.UndigitedEstimateClears | server/index.js:218-222 | saving a task whose time field holds text without leading digits clears the stored estimate |
| Flows.UntitledSubtaskRejected | server/index.js:36-40 | creating with a subtask whose title is still empty fails with 500 |
| Flows.CreatedOpen | server/index.js:192-203 | a created task is open whatever the form said |
| Flows.CreatedIsListed | server/index.js:164-210 | a created task appears in its creator's next listing |
| Text.Trim | src/services/geminiService.ts:172 | the result is a slice with only whitespace cut from each side, empty iff the text is all whitespace |
| Text.TrimIdempotent | src/components/TaskForm.tsx:82 | trimming twice is trimming once |
| Text.Split | src/services/geminiService.ts:171 | at least one piece, none containing the separator |
| Text.JoinSplit | src/services/geminiService.ts:171 | joining the pieces back gives the text |
| Text.SplitJoin | server/index.js:65 | splitting a join of separator-free pieces gives the pieces |
| Text.ToLower | src/App.tsx:63-64 | same length; each ASCII letter A-Z becomes its own lower case (32 code points on) and every other character is kept (the wider Unicode case mapping is left out) |
| Text.Utf16Length | src/services/geminiService.ts:176 | JavaScript `length`: between one and two units per character, equal to the character count iff no character lies outside the Basic Multilingual Plane |
| Text.Utf16LengthAppend | src/services/geminiService.ts:176 | the code units of a concatenation add up |
| Text.StartsWithNumberingIff | src/services/geminiService.ts:173 | the numbered-line test holds iff the line opens with at least one digit followed by a dot |
| Text.ParseShow | src/components/TaskForm.tsx:48-75 | `parseInt` of a number's `toString` is the number |
| Text.ParseNat | server/index.js:219 | an id parses iff it is canonical decimal, and it is then the text of its value |
| Text.ParseShowNat | server/index.js:219 | the text of a key parses back to the key |
| Types.ParsePriority | src/types/index.ts:15 | a priority text parses iff it names one of the three, and to the one it names |
| Types.ParsePriorityName | src/types/index.ts:15 | every priority's name parses back to it |
| Types.OrElse | server/index.js:195-202 | JavaScript `x \|\| fallback`: the value when truthy, the fallback otherwise |
| Seqs.FilterKeepsAll | src/App.tsx:60 | filtering keeps the whole list iff every element passes |
| Seqs.FilterMultiplicity | src/App.tsx:47-70 | filtering keeps every passing element as many times as it occurs and drops every other |
| Seqs.FilterFilter | src/components/TaskStats.tsx:14 | filtering by one test and then another is filtering by both |
| Seqs.SortByStable | src/App.tsx:73 | the sort keeps elements with equal keys in their original order |
| Seqs.DistinctInOrder | src/App.tsx:44 | `Array.from(new Set(...))`: each element once, in order of first occurrence |

## Left out

- The network calls to the assistant are not modelled: requests, prompt text, API keys and unwrapping of the response envelope. Each service function starts from the reply text, and a failed request is `None`.
- `src/services/api.ts` is not modelled: the axios instance, its interceptors, `localStorage` and `window.location.reload`. A server reply is a parameter.
- `JSON.parse` is not modelled; it is a parameter returning `None` when the text does not parse.
- Time zones are left out: local time is UTC, so `setHours(0, 0, 0, 0)` and `toISOString().split('T')[0]` agree with whole-day arithmetic in ms. The locale date text of the "future" badge is an opaque label.
- `Math.ceil` and `Math.round` are exact integer ceiling and rounding, not floating point. A ratio within float error of a half may round differently in the program.
- The refresh timer in `useRealTimeDate`, React state and effects, loading flags, async interleaving and all rendering are left out, and so is `src/components/AITaskGenerator.tsx` (UI only).
- MongoDB is a sequence of documents with a key counter. An `ObjectId` is the decimal text of its key. The order of documents with equal `createdAt` is left unspecified by the database; the model keeps store order.
- bcrypt and JWT are functions in `Env`, and the health route is left out.
- Server.UpdateTask: the patch has only the editable fields, and its priority is one of the three. A request that sends `userId`, `null` in a field other than the estimate, or an unknown priority is not modelled, although `findOneAndUpdate` runs no validators and would store them. The editor itself can send an unknown priority; see `Flows.UpdateBody`.
- Flows.UpdateBody: requires the draft's priority to be one of the three. The editor copies a breakdown reply's priority into the form unchecked (src/components/TaskForm.tsx:156), so it can send any text, which the server would store; the stored priority of the model has only the three values.
- Server.CreateTask: only the validation failures the client can cause are modelled (a priority outside the three, an Invalid Date, a subtask with an empty id or title). Type-cast failures on arbitrary JSON are not.
- Text.ParseInt: the `0x` prefix is not modelled. The form's estimate comes from a numeric input and never has one.
- Gemini.SmartBreakdown and Gemini.SuggestImprovements: a parsed object is taken to have every field the form reads. In the program a breakdown without `priority` or `category` sets that form field to `undefined` (src/components/TaskForm.tsx:156-157). One without `estimatedTime`, `tags` or `subtasks` throws inside the `setFormData` updater (src/components/TaskForm.tsx:158-167), which React runs outside the handler's `try`, so the error is not caught there. An improvements object without `improvedTitle`, `improvedDescription` or `suggestions` puts `undefined` into the form or the suggestion list.
- TaskForm.GetRecommendations states the form data and the three-line bound rather than the exact list, which is `Gemini.Recommendations` of the reply.
- Server.Login states success soundly and the unknown-email failure in its own contract. The converse holds only in a valid store, where emails are unique, and is `Server.LoginComplete`.
- AppView.UrgentTasks: the "due today" status the source also accepts is never produced by the classifier, so the model selects only tasks due at exactly the current instant.
- Text.ToLower: lowers only A-Z. JavaScript's `toLowerCase` applies the full Unicode case mapping, which also lowers letters such as `É` and can change the length of the text.
- AppView.FilteredTasks: the search is case-insensitive only for ASCII letters, through `Text.ToLower`. A title that differs from the search only in the case of a non-ASCII letter matches in the program but not in the model.

=== FILE: app_view.dfy ===
/**
  The task list view of the main screen (App.tsx): the category choices, the
  overdue and urgent alerts, the search and filter controls, the display
  order, and the records created from the generator's proposals.
*/
module AppView {
  import opened Wrappers
  import opened Types
  import opened Seqs
  import Text
  import DueDate
  import Gemini

  // ----- Categories -----

  function CategoryOf(t: Task): string {
    t.category
  }

  /** The category choices: each non-empty category once, in order of first appearance. */
  method Categories(tasks: seq<Task>) returns (r: seq<string>)
    ensures NoDuplicates(r)
    ensures forall c :: c in r <==> c != "" && exists t :: t in tasks && t.category == c
    ensures r == FirstOccurrences(Filter(Map(tasks, CategoryOf), Text.NonEmpty()))
  {
    var all := Map(tasks, CategoryOf);
    var present := Filter(all, Text.NonEmpty());
    r := DistinctInOrder(present);
    forall c | c != "" && exists t :: t in tasks && t.category == c
      ensures c in r
    {
      var t :| t in tasks && t.category == c;
      var i :| 0 <= i < |tasks| && tasks[i] == t;
      assert all[i] == c;
    }
  }

  // ----- Overdue and urgent alerts -----

  /** An open task with a due date whose badge reads "overdue" at `now`. */
  predicate IsOverdue(t: Task, now: int) {
    t.dueDate.Some? && !t.completed && DueDate.ClassifyDiff(t.dueDate.value - now).status == DueDate.Overdue
  }

  function OverdueAt(now: int): Task -> bool {
    t => IsOverdue(t, now)
  }

  /** An open task with a due date whose badge reads "due soon" or "due today" at `now`. */
  predicate IsUrgent(t: Task, now: int) {
    && t.dueDate.Some?
    && !t.completed
    && var s := DueDate.ClassifyDiff(t.dueDate.value - now).status;
       s == DueDate.DueSoon || s == DueDate.DueToday
  }

  function UrgentAt(now: int): Task -> bool {
    t => IsUrgent(t, now)
  }

  /** The overdue alert: exactly the open tasks due strictly before now. */
  function OverdueTasks(tasks: seq<Task>, now: int): (r: seq<Task>)
    ensures IsSubsequence(r, tasks)
    ensures forall t :: t in r <==> t in tasks && !t.completed && t.dueDate.Some? && t.dueDate.value < now
    ensures forall t :: multiset(r)[t] ==
              if !t.completed && t.dueDate.Some? && t.dueDate.value < now then multiset(tasks)[t] else 0
  {
    FilterMultiplicity(tasks, OverdueAt(now));
    Filter(tasks, OverdueAt(now))
  }

  /**
    The urgent alert. Since no distance is classified "due today", only the
    open tasks due at exactly the current millisecond are urgent.
  */
  function UrgentTasks(tasks: seq<Task>, now: int): (r: seq<Task>)
    ensures IsSubsequence(r, tasks)
    ensures forall t :: t in r <==> t in tasks && !t.completed && t.dueDate == Some(now)
    ensures forall t :: multiset(r)[t] == if !t.completed && t.dueDate == Some(now) then multiset(tasks)[t] else 0
  {
    UrgentExactlyNow(now);
    FilterMultiplicity(tasks, UrgentAt(now));
    Filter(tasks, UrgentAt(now))
  }

  /** A task is urgent exactly when it is open and due at the current millisecond. */
  lemma UrgentExactlyNow(now: int)
    ensures forall t :: UrgentAt(now)(t) <==> !t.completed && t.dueDate == Some(now)
  {
    forall t ensures UrgentAt(now)(t) <==> !t.completed && t.dueDate == Some(now) {
    }
  }

  /** No task is in both alerts. */
  lemma AlertsDisjoint(tasks: seq<Task>, now: int)
    ensures forall t :: t in OverdueTasks(tasks, now) ==> t !in UrgentTasks(tasks, now)
  {
  }

  // ----- Search and filters -----

  /** The filter controls: search text, priority (`"all"` or a priority name), category (`"all"` or a name), and whether completed tasks show. */
  datatype ViewFilter = ViewFilter(searchTerm: string, priority: string, category: string, showCompleted: bool)

  /** Case-insensitive search in the title, or in a non-empty description. */
  predicate MatchesSearch(t: Task, term: string) {
    || Text.Contains(Text.ToLower(t.title), Text.ToLower(term))
    || (t.description != "" && Text.Contains(Text.ToLower(t.description), Text.ToLower(term)))
  }

  predicate Shown(t: Task, f: ViewFilter) {
    && t.title != ""
    && MatchesSearch(t, f.searchTerm)
    && (f.priority == "all" || PriorityName(t.priority) == f.priority)
    && (f.category == "all" || t.category == f.category)
    && (f.showCompleted || !t.completed)
  }

  function ShownBy(f: ViewFilter): Task -> bool {
    t => Shown(t, f)
  }

  /** The tasks the list shows, in their stored order. */
  function FilteredTasks(tasks: seq<Task>, f: ViewFilter): (r: seq<Task>)
    ensures IsSubsequence(r, tasks)
    ensures forall t :: t in r ==> t in tasks && t.title != ""
    ensures forall t :: t in r ==> MatchesSearch(t, f.searchTerm)
    ensures f.priority != "all" ==> forall t :: t in r ==> PriorityName(t.priority) == f.priority
    ensures f.category != "all" ==> forall t :: t in r ==> t.category == f.category
    ensures !f.showCompleted ==> forall t :: t in r ==> !t.completed
    ensures forall t :: t in tasks && Shown(t, f) ==> t in r
    ensures forall t :: multiset(r)[t] == if Shown(t, f) then multiset(tasks)[t] else 0
  {
    FilterMultiplicity(tasks, ShownBy(f));
    Filter(tasks, ShownBy(f))
  }

  /** The initial controls (empty search, all priorities and categories, completed shown) hide only untitled tasks. */
  lemma InitialFilterShowsTitled(tasks: seq<Task>)
    ensures forall t :: t in FilteredTasks(tasks, ViewFilter("", "all", "all", true)) <==> t in tasks && t.title != ""
  {
    assert Text.ToLower("") == "";
    forall t | t in tasks && t.title != ""
      ensures MatchesSearch(t, "")
    {
      Text.ContainsEmpty(Text.ToLower(t.title));
    }
  }

  /** Unchecking "show completed" removes exactly the completed tasks. */
  lemma HideCompleted(tasks: seq<Task>, f: ViewFilter)
    ensures forall t :: t in FilteredTasks(tasks, f.(showCompleted := false))
                    <==> t in FilteredTasks(tasks, f.(showCompleted := true)) && !t.completed
  {
  }

  // ----- Display order -----

  /** `priorityOrder`: high 3, medium 2, low 1. */
  function Rank(p: Priority): int {
    match p
    case High => 3
    case Medium => 2
    case Low => 1
  }

  /** The comparator handed to `sort`: open before completed, then higher priority first. */
  function Compare(a: Task, b: Task): int {
    if a.completed != b.completed then (if a.completed then 1 else -1)
    else Rank(b.priority) - Rank(a.priority)
  }

  /** A numeric key whose order is the comparator's order. */
  function SortKey(t: Task): int {
    (if t.completed then 3 else 0) + (3 - Rank(t.priority))
  }

  /** Sorting by `SortKey` is sorting with `Compare`: the two agree on every pair. */
  lemma CompareAgreesWithKey(a: Task, b: Task)
    ensures Compare(a, b) < 0 <==> SortKey(a) < SortKey(b)
    ensures Compare(a, b) == 0 <==> SortKey(a) == SortKey(b)
    ensures Compare(a, b) > 0 <==> SortKey(a) > SortKey(b)
  {
  }

  /** The displayed order: a permutation with open tasks first and, within each group, higher priority first. */
  function SortedTasks(filtered: seq<Task>): (r: seq<Task>)
    ensures multiset(r) == multiset(filtered)
    ensures forall i, j :: 0 <= i < j < |r| && r[i].completed ==> r[j].completed
    ensures forall i, j :: 0 <= i < j < |r| && r[i].completed == r[j].completed ==> Rank(r[i].priority) >= Rank(r[j].priority)
  {
    var r := SortBy(filtered, SortKey);
    assert forall i, j :: 0 <= i < j < |r| ==> SortKey(r[i]) <= SortKey(r[j]);
    r
  }

  /** The sort is stable: tasks with the same completion and priority keep their stored order. */
  lemma SortedTasksStable(filtered: seq<Task>, k: int)
    ensures Filter(SortedTasks(filtered), HasKey(SortKey, k)) == Filter(filtered, HasKey(SortKey, k))
  {
    SortByStable(filtered, SortKey, k);
  }

  // ----- Creating the generator's proposals -----

  /**
    The creation request for the proposal at position `pos` of the batch,
    which has a title. Missing fields take the defaults "", "medium",
    "AI Generated", [] and ""; an unparsable due date serialises as null and
    the record gets none; each subtask title becomes an open subtask with the
    fresh id `newId(pos, j)`.
  */
  function DraftOf(t: Gemini.RawTask, pos: nat, newId: (nat, nat) -> Id): (d: TaskDraft)
    requires Truthy(t.title)
    ensures d.title == t.title.value && !d.completed
    ensures d.description == OrElse(t.description, "") && d.notes == OrElse(t.notes, "")
    ensures d.priority == OrElse(t.priority, "medium") && d.category == OrElse(t.category, "AI Generated")
    ensures d.priority != "" && d.category != ""
    ensures d.tags == t.tags.GetOr([])
    ensures t.dueDate.Some? && t.dueDate.value.At? ==> d.dueDate == Some(t.dueDate.value.ms)
    ensures (t.dueDate.None? || t.dueDate.value.InvalidDate?) ==> d.dueDate.None?
    ensures t.estimatedTime.Some? ==> d.estimatedTime == Minutes(t.estimatedTime.value)
    ensures t.estimatedTime.None? ==> d.estimatedTime == NoEstimate
    ensures |d.subtasks| == |t.subtasks.GetOr([])|
    ensures forall j :: 0 <= j < |d.subtasks| ==>
              d.subtasks[j] == Subtask(newId(pos, j), t.subtasks.GetOr([])[j], false)
  {
    var titles := t.subtasks.GetOr([]);
    TaskDraft(
      t.title.value,
      OrElse(t.description, ""),
      false,
      OrElse(t.priority, "medium"),
      OrElse(t.category, "AI Generated"),
      match t.dueDate
        case Some(At(ms)) => Some(ms)
        case _ => None,
      match t.estimatedTime
        case Some(n) => Minutes(n)
        case None => NoEstimate,
      t.tags.GetOr([]),
      seq(|titles|, j requires 0 <= j < |titles| => Subtask(newId(pos, j), titles[j], false)),
      OrElse(t.notes, ""))
  }

  /** An element that leads to a creation request: an object with a non-empty title. */
  predicate IsTitledObject(item: Gemini.Item) {
    item.Obj? && Truthy(item.task.title)
  }

  function IsTitledObjectFn(): Gemini.Item -> bool {
    item => IsTitledObject(item)
  }

  /** An element of the batch together with its position. */
  datatype Entry = Entry(pos: nat, item: Gemini.Item)

  /** Each element of `items` paired with its position, counted from `from`. */
  function Numbered(items: seq<Gemini.Item>, from: nat): (r: seq<Entry>)
    ensures |r| == |items|
    ensures forall i :: 0 <= i < |items| ==> r[i] == Entry(from + i, items[i])
  {
    seq(|items|, i requires 0 <= i < |items| => Entry(from + i, items[i]))
  }

  function TitledEntry(): Entry -> bool {
    (e: Entry) => IsTitledObject(e.item)
  }

  /** Reference definition: one draft per entry, made from the entry's object at the entry's position. */
  function DraftEntries(es: seq<Entry>, newId: (nat, nat) -> Id): (r: seq<TaskDraft>)
    requires forall e :: e in es ==> IsTitledObject(e.item)
    ensures |r| == |es|
    ensures forall i :: 0 <= i < |es| ==> IsTitledObject(es[i].item) && r[i] == DraftOf(es[i].item.task, es[i].pos, newId)
  {
    seq(|es|, i requires 0 <= i < |es| && IsTitledObject(es[i].item) => DraftOf(es[i].item.task, es[i].pos, newId))
  }

  /**
    The creation requests for `items`: number the elements from `start`,
    keep the titled objects, and draft each at its position, so the element
    at position `p` of `items` gets subtask ids `newId(start + p, _)`.
  */
  function DraftsFrom(items: seq<Gemini.Item>, start: nat, newId: (nat, nat) -> Id): (r: seq<TaskDraft>)
    ensures r == DraftEntries(Filter(Numbered(items, start), TitledEntry()), newId)
    decreases |items|
  {
    if |items| == 0 then []
    else
      var rest := DraftsFrom(items[1..], start + 1, newId);
      DraftsStep(items, start, newId, rest);
      if IsTitledObject(items[0]) then [DraftOf(items[0].task, start, newId)] + rest
      else rest
  }

  /** Numbering a non-empty sequence is numbering its head, then its tail from the next position. */
  lemma NumberedCons(items: seq<Gemini.Item>, from: nat)
    requires |items| > 0
    ensures Numbered(items, from) == [Entry(from, items[0])] + Numbered(items[1..], from + 1)
  {
  }

  /** Drafting a non-empty list of entries drafts its head, then its tail. */
  lemma DraftEntriesCons(e: Entry, tail: seq<Entry>, newId: (nat, nat) -> Id)
    requires IsTitledObject(e.item)
    requires forall x :: x in tail ==> IsTitledObject(x.item)
    ensures DraftEntries([e] + tail, newId) == [DraftOf(e.item.task, e.pos, newId)] + DraftEntries(tail, newId)
  {
    var all := [e] + tail;
    assert forall i :: 1 <= i < |all| ==> all[i] == tail[i - 1];
  }

  lemma DraftsStep(items: seq<Gemini.Item>, start: nat, newId: (nat, nat) -> Id, rest: seq<TaskDraft>)
    requires |items| > 0
    requires rest == DraftEntries(Filter(Numbered(items[1..], start + 1), TitledEntry()), newId)
    ensures (if IsTitledObject(items[0]) then [DraftOf(items[0].task, start, newId)] + rest else rest)
            == DraftEntries(Filter(Numbered(items, start), TitledEntry()), newId)
  {
    var e := Entry(start, items[0]);
    var tail := Filter(Numbered(items[1..], start + 1), TitledEntry());
    assert Filter(Numbered(items, start), TitledEntry()) == (if IsTitledObject(items[0]) then [e] else []) + tail by {
      NumberedCons(items, start);
      FilterCons(e, Numbered(items[1..], start + 1), TitledEntry());
    }
    if IsTitledObject(items[0]) {
      DraftEntriesCons(e, tail, newId);
    } else {
      assert [] + tail == tail;
    }
  }

  /** As many drafts as titled objects. */
  lemma {:induction false} TitledCount(items: seq<Gemini.Item>, from: nat)
    ensures |Filter(Numbered(items, from), TitledEntry())| == |Filter(items, IsTitledObjectFn())|
    decreases |items|
  {
    if |items| > 0 {
      TitledCount(items[1..], from + 1);
      var n := if IsTitledObject(items[0]) then 1 else 0;
      assert |Filter(Numbered(items, from), TitledEntry())| == n + |Filter(Numbered(items[1..], from + 1), TitledEntry())| by {
        NumberedCons(items, from);
        FilterCons(Entry(from, items[0]), Numbered(items[1..], from + 1), TitledEntry());
      }
      assert |Filter(items, IsTitledObjectFn())| == n + |Filter(items[1..], IsTitledObjectFn())| by {
        assert items == [items[0]] + items[1..];
        FilterCons(items[0], items[1..], IsTitledObjectFn());
      }
    }
  }

  /**
    `handleTasksGenerated`: anything that is not an array creates nothing;
    otherwise one creation request per titled object, in order. A string
    element has no `title` property, so it is skipped before the branch that
    would have handled strings.
  */
  function HandleTasksGenerated(batch: Option<seq<Gemini.Item>>, newId: (nat, nat) -> Id): (r: seq<TaskDraft>)
    ensures batch.None? ==> r == []
    ensures batch.Some? ==> r == DraftEntries(Filter(Numbered(batch.value, 0), TitledEntry()), newId)
    ensures batch.Some? ==> |r| == |Filter(batch.value, IsTitledObjectFn())| && |r| <= |batch.value|
    ensures forall d :: d in r ==> d.title != "" && !d.completed
  {
    match batch
    case None => []
    case Some(items) =>
      TitledCount(items, 0);
      var r := DraftsFrom(items, 0, newId);
      assert forall k :: 0 <= k < |r| ==> r[k].title != "" && !r[k].completed;
      r
  }

  /** A batch holding no objects (strings, numbers, null) creates no task. */
  lemma {:induction false} NoObjectsNoDrafts(items: seq<Gemini.Item>, start: nat, newId: (nat, nat) -> Id)
    requires forall i :: 0 <= i < |items| ==> !items[i].Obj?
    ensures DraftsFrom(items, start, newId) == []
    decreases |items|
  {
    if |items| > 0 {
      NoObjectsNoDrafts(items[1..], start + 1, newId);
    }
  }

  /**
    End to end: every request created from a generator reply has no due date
    or one within the coming 365 days.
  */
  lemma {:induction false} GeneratedDraftsInWindow(ts: seq<Gemini.RawTask>, start: nat, newId: (nat, nat) -> Id, todayStart: int)
    requires forall t :: t in ts ==> Gemini.InWindow(t, todayStart)
    ensures forall d :: d in DraftsFrom(Wrap(ts), start, newId) ==>
              d.dueDate.None? || todayStart < d.dueDate.value <= todayStart + 365 * DayMs
    decreases |ts|
  {
    if |ts| > 0 {
      assert Wrap(ts)[1..] == Wrap(ts[1..]);
      GeneratedDraftsInWindow(ts[1..], start + 1, newId, todayStart);
      assert ts[0] in ts;
    }
  }

  /** The proposals as parsed array elements. */
  function Wrap(ts: seq<Gemini.RawTask>): (r: seq<Gemini.Item>)
    ensures |r| == |ts|
    ensures forall i :: 0 <= i < |ts| ==> r[i] == Gemini.Obj(ts[i])
  {
    seq(|ts|, i requires 0 <= i < |ts| => Gemini.Obj(ts[i]))
  }
}

=== FILE: due_date.dfy ===
/**
  The due-date badge of a task: `getDueDateStatus` maps the distance between
  a due instant and the current instant to one of six statuses, an urgency
  and a label. JavaScript's `Math.ceil(diffMs / unit)` is integer ceiling
  division here.
*/
module DueDate {
  import opened Types

  datatype Status = Overdue | DueSoon | DueToday | DueTomorrow | DueThisWeek | Future

  datatype Urgency = UrgencyHigh | UrgencyMedium | UrgencyLow

  /**
    The badge text: "Overdue today", "<n>d overdue", "Due soon", "Due today",
    "Due tomorrow", "<n> days left", or the due date in the user's locale.
  */
  datatype Label =
    | OverdueToday
    | DaysOverdue(daysOverdue: nat)
    | DueSoonText
    | DueTodayText
    | DueTomorrowText
    | DaysLeft(daysLeft: int)
    | LocaleDate

  datatype DueDateStatus = DueDateStatus(text: Label, status: Status, urgency: Urgency)

  /** `Math.ceil(a / b)` for a positive divisor: the least `q` with `a <= b * q`. */
  function CeilDiv(a: int, b: int): (q: int)
    requires b > 0
    ensures b * (q - 1) < a <= b * q
  {
    var f := (-a) / b;
    var m := (-a) % b;
    assert -a == b * f + m && 0 <= m < b;
    assert b * (-f - 1) == -(b * f) - b;
    -f
  }

  /** The urgency each status carries. */
  function UrgencyOf(s: Status): Urgency {
    match s
    case Overdue | DueSoon => UrgencyHigh
    case DueToday | DueTomorrow => UrgencyMedium
    case DueThisWeek | Future => UrgencyLow
  }

  /**
    `getDueDateStatus` on `diffMs = due - now`. Because the day count is a
    ceiling, any positive distance counts as at least one day: "due soon"
    needs the due instant to be exactly now, "due today" is never reached,
    and a task due within the next 24 hours reads "Due tomorrow".
  */
  function ClassifyDiff(diffMs: int): (r: DueDateStatus)
    ensures r.urgency == UrgencyOf(r.status)
    ensures r.status == Overdue <==> diffMs < 0
    ensures r.status == DueSoon <==> diffMs == 0
    ensures r.status != DueToday
    ensures r.status == DueTomorrow <==> 0 < diffMs <= DayMs
    ensures r.status == DueThisWeek <==> DayMs < diffMs <= 7 * DayMs
    ensures r.status == Future <==> 7 * DayMs < diffMs
    ensures r.status == Overdue ==> (r.text == OverdueToday <==> -DayMs < diffMs)
    ensures r.status == Overdue && diffMs <= -DayMs ==> r.text.DaysOverdue?
    ensures r.status == DueSoon ==> r.text == DueSoonText
    ensures r.status == DueTomorrow ==> r.text == DueTomorrowText
    ensures r.status == DueThisWeek ==> r.text.DaysLeft?
    ensures r.status == Future ==> r.text == LocaleDate
    ensures r.text.DaysOverdue? ==>
              var n := r.text.daysOverdue; 1 <= n && n * DayMs <= -diffMs < (n + 1) * DayMs
    ensures r.text.DaysLeft? ==>
              var n := r.text.daysLeft; 2 <= n <= 7 && (n - 1) * DayMs < diffMs <= n * DayMs
  {
    var diffDays := CeilDiv(diffMs, DayMs);
    var diffHours := CeilDiv(diffMs, HourMs);
    DayCount(diffMs, diffDays);
    assert diffMs == 0 ==> diffHours == 0;
    if diffMs < 0 then
      var overdueDays := if diffDays < 0 then -diffDays else diffDays;
      DueDateStatus(if overdueDays == 0 then OverdueToday else DaysOverdue(overdueDays), Overdue, UrgencyHigh)
    else if diffDays == 0 then
      if diffHours <= 2 then DueDateStatus(DueSoonText, DueSoon, UrgencyHigh)
      else DueDateStatus(DueTodayText, DueToday, UrgencyMedium)
    else if diffDays == 1 then DueDateStatus(DueTomorrowText, DueTomorrow, UrgencyMedium)
    else if diffDays <= 7 then DueDateStatus(DaysLeft(diffDays), DueThisWeek, UrgencyLow)
    else DueDateStatus(LocaleDate, Future, UrgencyLow)
  }

  /** Where the rounded-up day count puts a distance. */
  lemma DayCount(diffMs: int, days: int)
    requires DayMs * (days - 1) < diffMs <= DayMs * days
    ensures days <= 0 <==> diffMs <= 0
    ensures days == 0 <==> -DayMs < diffMs <= 0
    ensures days == 1 <==> 0 < diffMs <= DayMs
    ensures 2 <= days <= 7 <==> DayMs < diffMs <= 7 * DayMs
    ensures days > 7 <==> 7 * DayMs < diffMs
  {
  }

  /**
    `getDueDateStatus(dueDate, currentTime)`. An unparsable due date has a NaN
    time value, fails every comparison and lands in the last branch.
  */
  function Classify(due: Instant, now: int): (r: DueDateStatus)
    ensures due.InvalidDate? ==> r.status == Future && r.urgency == UrgencyLow && r.text == LocaleDate
    ensures due.At? ==> r == ClassifyDiff(due.ms - now)
  {
    match due
    case At(ms) => ClassifyDiff(ms - now)
    case InvalidDate => DueDateStatus(LocaleDate, Future, UrgencyLow)
  }

  /** Only the distance matters: moving both instants by the same amount changes nothing. */
  lemma ClassifyShift(due: int, now: int, shift: int)
    ensures Classify(At(due + shift), now + shift) == Classify(At(due), now)
  {
    assert (due + shift) - (now + shift) == due - now;
  }
}

=== FILE: flows.dfy ===
/**
  The editor's record travelling to the server: `JSON.stringify` leaves out
  the fields that are `undefined`, so a draft becomes a creation body or an
  update patch in which those fields are absent.
*/
module Flows {
  import opened Wrappers
  import opened Types
  import Seqs
  import TaskForm
  import Server
  import Text

  /**
    The body of `POST /api/tasks` for a draft. A NaN estimate is sent as
    `null`, which the route treats like an absent one.
  */
  function CreateBody(d: TaskDraft): (b: Server.NewTask)
    ensures b.title == Some(d.title) && b.description == Some(d.description)
    ensures b.priority == Some(d.priority) && b.category == Some(d.category)
    ensures b.tags == Some(d.tags) && b.subtasks == Some(d.subtasks) && b.notes == Some(d.notes)
    ensures d.dueDate.Some? ==> b.dueDate == Some(At(d.dueDate.value))
    ensures d.dueDate.None? ==> b.dueDate.None?
    ensures d.estimatedTime.Minutes? ==> b.estimatedTime == Some(d.estimatedTime.minutes)
    ensures !d.estimatedTime.Minutes? ==> b.estimatedTime.None?
  {
    Server.NewTask(
      Some(d.title), Some(d.description), Some(d.priority), Some(d.category),
      match d.dueDate
        case Some(ms) => Some(At(ms))
        case None => None,
      match d.estimatedTime
        case Minutes(n) => Some(n)
        case _ => None,
      Some(d.tags), Some(d.subtasks), Some(d.notes))
  }

  /**
    The body of `PUT /api/tasks/:id` for a draft whose priority is one of the
    three. An unset estimate is left out of the request, a NaN one is sent as
    `null` and so clears the stored estimate.
  */
  function UpdateBody(d: TaskDraft): (p: Server.TaskPatch)
    requires ParsePriority(d.priority).Some?
    ensures p.title == Some(d.title) && p.description == Some(d.description) && p.completed == Some(d.completed)
    ensures p.priority == ParsePriority(d.priority) && p.category == Some(d.category)
    ensures p.tags == Some(d.tags) && p.subtasks == Some(d.subtasks) && p.notes == Some(d.notes)
    ensures d.dueDate.Some? ==> p.dueDate == Some(At(d.dueDate.value))
    ensures d.dueDate.None? ==> p.dueDate.None?
    ensures d.estimatedTime == NoEstimate ==> p.estimatedTime.None?
    ensures d.estimatedTime == NotANumber ==> p.estimatedTime == Some(None)
    ensures d.estimatedTime.Minutes? ==> p.estimatedTime == Some(Some(d.estimatedTime.minutes))
  {
    Server.TaskPatch(
      Some(d.title), Some(d.description), Some(d.completed), ParsePriority(d.priority), Some(d.category),
      match d.dueDate
        case Some(ms) => Some(At(ms))
        case None => None,
      match d.estimatedTime
        case NoEstimate => None
        case NotANumber => Some(None)
        case Minutes(n) => Some(Some(n)),
      Some(d.tags), Some(d.subtasks), Some(d.notes))
  }

  /**
    Saving an edit whose time field holds text without leading digits clears
    the stored estimate: `parseInt` gives NaN, the request carries `null`, and
    the update spreads it over the document.
  */
  lemma UndigitedEstimateClears(s: Server.Store, claims: Server.Claims, id: string, f: TaskForm.FormData, now: int)
    requires f.estimatedTime != "" && Text.ParseInt(f.estimatedTime).None?
    requires Server.UpdateTask(s, claims, id, UpdateBody(TaskForm.Submit(f)), now).response.code == 200
    ensures var i := Server.Locate(s, claims, id).index;
            Server.UpdateTask(s, claims, id, UpdateBody(TaskForm.Submit(f)), now).store.docs[i].task.estimatedTime.None?
  {
  }

  /**
    Saving an edited task with the date field emptied leaves the stored due
    date as it was: the empty field becomes `undefined`, which the request
    leaves out, so the update has no date to apply.
  */
  lemma EmptiedDateKeepsDueDate(s: Server.Store, claims: Server.Claims, id: string, f: TaskForm.FormData, now: int)
    requires f.dueDay.None?
    requires Server.UpdateTask(s, claims, id, UpdateBody(TaskForm.Submit(f)), now).response.code == 200
    ensures var i := Server.Locate(s, claims, id).index;
            Server.UpdateTask(s, claims, id, UpdateBody(TaskForm.Submit(f)), now).store.docs[i].task.dueDate
              == s.docs[i].task.dueDate
  {
  }

  /**
    Creating from a form that holds a subtask still without a title fails
    with a 500: the subtask document's required title is empty.
  */
  lemma UntitledSubtaskRejected(s: Server.Store, claims: Server.Claims, f: TaskForm.FormData, k: nat, now: int)
    requires f.title != "" && k < |f.subtasks| && f.subtasks[k].title == ""
    ensures Server.CreateTask(s, claims, CreateBody(TaskForm.Submit(f)), now).response == Server.ServerError
  {
    var b := CreateBody(TaskForm.Submit(f));
    assert f.subtasks[k] in b.subtasks.GetOr([]);
  }

  /** The server ignores the form's completion flag on creation: a new task is always open. */
  lemma CreatedOpen(s: Server.Store, claims: Server.Claims, f: TaskForm.FormData, now: int)
    requires Server.CreateTask(s, claims, CreateBody(TaskForm.Submit(f)), now).response.code == 201
    ensures var r := Server.CreateTask(s, claims, CreateBody(TaskForm.Submit(f)), now);
            r.response.body.Record? && !r.response.body.task.completed
  {
  }

  /** A created task is among the creator's tasks in the next listing. */
  lemma CreatedIsListed(s: Server.Store, claims: Server.Claims, b: Server.NewTask, now: int)
    requires Server.CreateTask(s, claims, b, now).response.code == 201
    ensures var r := Server.CreateTask(s, claims, b, now);
            var listed := Server.ListTasks(r.store, claims);
            listed.body.Records? && r.response.body.task in listed.body.tasks
  {
    var r := Server.CreateTask(s, claims, b, now);
    var d := r.store.docs[|s.docs|];
    assert d in r.store.docs;
    assert Server.OwnedBy(claims.userId)(d);
    var owned := Seqs.Filter(r.store.docs, Server.OwnedBy(claims.userId));
    assert d in owned;
    var i :| 0 <= i < |owned| && owned[i] == d;
    var tasks := Seqs.Map(owned, Server.TaskOf);
    assert tasks[i] == d.task;
    var listed := Server.ListTasks(r.store, claims).body.tasks;
    assert d.task in multiset(listed);
  }
}

=== FILE: gemini.dfy ===
/**
  Post-processing of the text-generation service's replies (geminiService.ts):
  extracting the JSON array of proposed tasks, repairing their due dates into
  a future window, the line-based fallback parser, the recommendation list
  and the fixed fallback records. The network exchange is not modelled: each
  function starts from the reply text. `JSON.parse` is a parameter returning
  `None` where it would throw.

  Dates are whole milliseconds and local time is taken to be UTC, so the
  start of today is `now` rounded down to a multiple of a day and the date
  `now + k` days, written as `YYYY-MM-DD` and read back, is that start plus
  `k` days.
*/
module Gemini {
  import opened Wrappers
  import opened Types
  import opened Seqs
  import Text
  import DueDate

  /** One proposed task as the service wrote it; `None` is an absent, null or falsy field. */
  datatype RawTask = RawTask(
    title: Option<string>,
    description: Option<string>,
    priority: Option<string>,
    category: Option<string>,
    dueDate: Option<Instant>,
    estimatedTime: Option<int>,
    tags: Option<seq<string>>,
    subtasks: Option<seq<string>>,
    notes: Option<string>)

  /** An element of the parsed array: an object, a string, or another primitive (number, boolean, null). */
  datatype Item = Obj(task: RawTask) | Str(text: string) | Scalar

  /** Local midnight of the day containing `now` (`today.setHours(0, 0, 0, 0)`). */
  function StartOfDay(now: int): (s: int)
    ensures s <= now < s + DayMs
    ensures s % DayMs == 0
  {
    (now / DayMs) * DayMs
  }

  // ----- Extracting the JSON text -----

  /** The position of the last `c` in `s`. */
  function LastIndexOf(s: string, c: char): (i: nat)
    requires c in s
    ensures i < |s| && s[i] == c
    ensures forall k :: i < k < |s| ==> s[k] != c
  {
    if s[|s| - 1] == c then |s| - 1
    else
      assert c in s[..|s| - 1] by {
        var k :| 0 <= k < |s| && s[k] == c;
        assert s[..|s| - 1][k] == c;
      }
      LastIndexOf(s[..|s| - 1], c)
  }

  /**
    The match of the greedy regular expression `/\[[\s\S]*\]/` (with `{` and
    `}` for the object variant): from the first `open` to the last `close`.
    It exists exactly when some `open` comes before some `close`.
  */
  function ExtractBracketed(text: string, open: char, close: char): (r: Option<string>)
    requires open != close
    ensures r.Some? <==> exists i, j :: 0 <= i < j < |text| && text[i] == open && text[j] == close
    ensures r.Some? ==> exists i, j :: OuterSpan(text, open, close, i, j) && r.value == text[i..j + 1]
  {
    if open in text && close in text then
      var i := Text.IndexOf(text, open);
      var j := LastIndexOf(text, close);
      if i < j then
        assert OuterSpan(text, open, close, i, j);
        Some(text[i..j + 1])
      else
        None
    else None
  }

  /**
    A reply made of a bracketed body with no `open` before it and no `close`
    after it yields exactly that body.
  */
  lemma ExtractSurrounded(pre: string, body: string, post: string, open: char, close: char)
    requires open != close
    requires |body| >= 2 && body[0] == open && body[|body| - 1] == close
    requires open !in pre && close !in post
    ensures ExtractBracketed(pre + body + post, open, close) == Some(body)
  {
    var text := pre + body + post;
    var a, b := |pre|, |pre| + |body| - 1;
    assert text[a] == open && text[b] == close;
    var r := ExtractBracketed(text, open, close);
    var i, j :| OuterSpan(text, open, close, i, j) && r.value == text[i..j + 1];
    assert i == a && j == b;
    assert text[a..b + 1] == body;
  }

  /** `text[i]` is the first `open` and `text[j]` the last `close`, in that order. */
  predicate OuterSpan(text: string, open: char, close: char, i: int, j: int) {
    && 0 <= i < j < |text| && text[i] == open && text[j] == close
    && (forall k :: 0 <= k < i ==> text[k] != open)
    && (forall k :: j < k < |text| ==> text[k] != close)
  }

  // ----- Due-date repair -----

  /** Whole days from the start of today to `ms`, rounded up. */
  function DayOffset(ms: int, todayStart: int): int {
    DueDate.CeilDiv(ms - todayStart, DayMs)
  }

  /**
    The replacement due date's distance in days when a date is missing or out
    of range: `task.priority || 'medium'` selects the window and the position
    in the array spreads tasks within it.
  */
  function ReplacementOffset(priority: Option<string>, index: nat): (d: nat)
    ensures 1 <= d <= 21
    ensures OrElse(priority, "medium") == "high" ==> d == 1 + index % 2
    ensures OrElse(priority, "medium") == "medium" ==> 3 <= d <= 7 && d == 3 + index % 5
    ensures OrElse(priority, "medium") != "high" && OrElse(priority, "medium") != "medium" ==>
              7 <= d <= 21 && d == 7 + index % 15
  {
    var p := OrElse(priority, "medium");
    if p == "high" then 1 + index % 2
    else if p == "medium" then 3 + index % 5
    else 7 + index % 15
  }

  /**
    Whether a supplied date survives: `diffDays <= 0 || diffDays > 365` is
    false. An Invalid Date makes both comparisons false, so it is kept.
  */
  predicate KeepsSupplied(d: Instant, todayStart: int) {
    match d
    case At(ms) => !(DayOffset(ms, todayStart) <= 0 || DayOffset(ms, todayStart) > 365)
    case InvalidDate => true
  }

  /** The `tasks.map((task, index) => ...)` body for an object element. */
  function NormaliseOne(t: RawTask, index: nat, todayStart: int): RawTask {
    if t.dueDate.Some? && KeepsSupplied(t.dueDate.value, todayStart) then t
    else t.(dueDate := Some(At(todayStart + ReplacementOffset(t.priority, index) * DayMs)))
  }

  /**
    The date repair over the parsed array. Reading or assigning `dueDate` on
    a primitive element throws, which sends the reply to the fallback parser:
    that is `None` here.
  */
  function NormaliseAll(items: seq<Item>, todayStart: int): (r: Option<seq<RawTask>>)
    ensures r.Some? <==> forall i :: 0 <= i < |items| ==> items[i].Obj?
    ensures r.Some? ==> |r.value| == |items|
    ensures r.Some? ==> forall i :: 0 <= i < |items| ==>
              r.value[i] == items[i].task.(dueDate := r.value[i].dueDate)
    ensures r.Some? ==> forall i :: 0 <= i < |items| ==>
              var t := items[i].task;
              var d := r.value[i].dueDate;
              && (t.dueDate.Some? && t.dueDate.value.At? && 1 <= DayOffset(t.dueDate.value.ms, todayStart) <= 365
                  ==> d == t.dueDate)
              && (t.dueDate == Some(InvalidDate) ==> d == t.dueDate)
              && (t.dueDate.None?
                  || (t.dueDate.value.At? && !(1 <= DayOffset(t.dueDate.value.ms, todayStart) <= 365))
                  ==> d == Some(At(todayStart + ReplacementOffset(t.priority, i) * DayMs)))
  {
    if forall i :: 0 <= i < |items| ==> items[i].Obj? then
      Some(seq(|items|, i requires 0 <= i < |items| => NormaliseOne(items[i].task, i, todayStart)))
    else None
  }

  /** The final safety check's test: dated tasks must fall after the start of today. */
  predicate IsFuture(t: RawTask, todayStart: int) {
    match t.dueDate
    case None => true
    case Some(At(ms)) => ms > todayStart
    case Some(InvalidDate) => false
  }

  function FutureOnly(todayStart: int): RawTask -> bool {
    t => IsFuture(t, todayStart)
  }

  /** `filter(task => ...)`: drops every task dated today or earlier, or with an unparsable date. */
  function FinalFilter(ts: seq<RawTask>, todayStart: int): (r: seq<RawTask>)
    ensures IsSubsequence(r, ts)
    ensures forall t :: t in r <==> t in ts && IsFuture(t, todayStart)
    ensures forall t :: multiset(r)[t] == if IsFuture(t, todayStart) then multiset(ts)[t] else 0
  {
    FilterMultiplicity(ts, FutureOnly(todayStart));
    Filter(ts, FutureOnly(todayStart))
  }

  /** The due date lies strictly after the start of today and at most 365 days after it. */
  predicate InWindow(t: RawTask, todayStart: int) {
    t.dueDate.Some? && t.dueDate.value.At?
    && todayStart < t.dueDate.value.ms <= todayStart + 365 * DayMs
  }

  /** The final filter removes nothing from tasks that are all dated inside the window. */
  lemma FinalFilterKeepsWindow(ts: seq<RawTask>, todayStart: int)
    requires forall i :: 0 <= i < |ts| ==> InWindow(ts[i], todayStart)
    ensures FinalFilter(ts, todayStart) == ts
  {
    assert forall t :: t in ts ==> FutureOnly(todayStart)(t);
    FilterKeepsAll(ts, FutureOnly(todayStart));
  }

  /**
    After repair every task is dated: either inside the window, or with the
    Invalid Date it arrived with. The final filter therefore removes exactly
    the tasks whose supplied date could not be parsed.
  */
  lemma NormalisedDates(items: seq<Item>, todayStart: int)
    requires NormaliseAll(items, todayStart).Some?
    ensures var ts := NormaliseAll(items, todayStart).value;
            forall i :: 0 <= i < |ts| ==>
              InWindow(ts[i], todayStart)
              || (ts[i].dueDate == Some(InvalidDate) && items[i].task.dueDate == Some(InvalidDate))
    ensures var ts := NormaliseAll(items, todayStart).value;
            forall t :: t in FinalFilter(ts, todayStart) <==> t in ts && t.dueDate != Some(InvalidDate)
  {
    var ts := NormaliseAll(items, todayStart).value;
    forall i | 0 <= i < |ts|
      ensures InWindow(ts[i], todayStart)
              || (ts[i].dueDate == Some(InvalidDate) && items[i].task.dueDate == Some(InvalidDate))
    {
      var t := items[i].task;
      if t.dueDate.Some? && t.dueDate.value.At? && 1 <= DayOffset(t.dueDate.value.ms, todayStart) <= 365 {
        DueDate.DayCount(t.dueDate.value.ms - todayStart, DayOffset(t.dueDate.value.ms, todayStart));
      }
    }
  }

  // ----- The line-based fallback -----

  /** Every line of the reply, trimmed. */
  function TrimmedLines(text: string): (r: seq<string>)
    ensures |r| == |Text.Lines(text)|
    ensures forall i :: 0 <= i < |r| ==> r[i] == Text.Trim(Text.Lines(text)[i])
  {
    var lines := Text.Lines(text);
    seq(|lines|, i requires 0 <= i < |lines| => Text.Trim(lines[i]))
  }

  /** `line.length > 0 && !line.match(/^\d+\./)`: numbered lines are dropped whole. */
  predicate KeepLine(line: string) {
    |line| > 0 && !Text.StartsWithNumbering(line)
  }

  function KeepLineFn(): string -> bool {
    l => KeepLine(l)
  }

  /** The candidate lines of the fallback parser, in order. */
  function FallbackLines(text: string): (r: seq<string>)
    ensures IsSubsequence(r, TrimmedLines(text))
    ensures forall l :: l in r <==> l in TrimmedLines(text) && KeepLine(l)
    ensures forall l :: multiset(r)[l] == if KeepLine(l) then multiset(TrimmedLines(text))[l] else 0
  {
    FilterMultiplicity(TrimmedLines(text), KeepLineFn());
    Filter(TrimmedLines(text), KeepLineFn())
  }

  /** A request reads as a single task: under 50 UTF-16 code units, with no " and " and no comma. */
  predicate IsSimpleRequest(context: string) {
    Text.Utf16Length(context) < 50 && !Text.Contains(context, " and ") && !Text.Contains(context, ",")
  }

  /** The priority the fallback parser gives the task at `index`. */
  function FallbackPriority(index: nat): string {
    if index < 2 then "high" else if index < 4 then "medium" else "low"
  }

  /** The minimal task the fallback parser makes of one line. */
  function FallbackTask(line: string, index: nat, todayStart: int): RawTask {
    var p := FallbackPriority(index);
    RawTask(
      Some(line),
      Some("AI-generated task based on your request"),
      Some(p),
      Some("AI Generated"),
      Some(At(todayStart + ReplacementOffset(Some(p), index) * DayMs)),
      Some(30),
      Some(["ai-generated"]),
      Some([]),
      None)
  }

  /**
    The fallback task at each of the four positions the parser can reach:
    high priority due in 1 or 2 days, then medium priority due in 5 or 6
    days, with the fixed description, category, estimate and tag.
  */
  lemma FallbackTaskAt(line: string, i: nat, todayStart: int)
    requires i < 4
    ensures var t := FallbackTask(line, i, todayStart);
            && t.title == Some(line)
            && t.priority == Some(if i < 2 then "high" else "medium")
            && t.dueDate == Some(At(todayStart + [1, 2, 5, 6][i] * DayMs))
            && t.description == Some("AI-generated task based on your request")
            && t.category == Some("AI Generated")
            && t.estimatedTime == Some(30)
            && t.tags == Some(["ai-generated"])
            && t.subtasks == Some([])
            && InWindow(t, todayStart)
  {
  }

  /**
    `parseSimpleTasks`: one task for a simple request, otherwise up to four,
    made from the first surviving lines in order; the final filter keeps
    them all.
  */
  function ParseSimpleTasks(text: string, context: string, now: int): (r: seq<RawTask>)
    ensures var lines := FallbackLines(text);
            |r| == Min(|lines|, if IsSimpleRequest(context) then 1 else 4)
    ensures |r| <= 4
    ensures forall i :: 0 <= i < |r| ==> r[i] == FallbackTask(FallbackLines(text)[i], i, StartOfDay(now))
    ensures forall t :: t in r ==> InWindow(t, StartOfDay(now))
  {
    var lines := FallbackLines(text);
    var maxTasks := if IsSimpleRequest(context) then 1 else Min(|lines|, 4);
    FallbackTasks(lines[..Min(maxTasks, |lines|)], StartOfDay(now))
  }

  /** The fallback tasks made from at most four selected lines, after the final filter, which keeps them all. */
  function FallbackTasks(selected: seq<string>, todayStart: int): (r: seq<RawTask>)
    requires |selected| <= 4
    ensures |r| == |selected|
    ensures forall i :: 0 <= i < |r| ==> r[i] == FallbackTask(selected[i], i, todayStart) && InWindow(r[i], todayStart)
  {
    var generated := seq(|selected|, i requires 0 <= i < |selected| => FallbackTask(selected[i], i, todayStart));
    forall i | 0 <= i < |generated| ensures InWindow(generated[i], todayStart) {
      FallbackTaskAt(selected[i], i, todayStart);
    }
    FinalFilterKeepsWindow(generated, todayStart);
    FinalFilter(generated, todayStart)
  }

  /**
    `generateTasks` after the service replied with `text`: the JSON path when
    the reply holds a bracketed span that parses and whose elements are all
    objects, the fallback parser otherwise. Whichever path runs, every task
    returned is due after today and within a year.
  */
  function GenerateTasks(text: string, context: string, now: int, parse: string -> Option<seq<Item>>)
    : (r: seq<RawTask>)
    ensures forall t :: t in r ==> InWindow(t, StartOfDay(now))
    ensures (forall i, j :: 0 <= i < j < |text| ==> !(text[i] == '[' && text[j] == ']'))
              ==> r == ParseSimpleTasks(text, context, now)
    ensures ExtractBracketed(text, '[', ']').Some? ==>
              var parsed := parse(ExtractBracketed(text, '[', ']').value);
              var repaired := if parsed.Some? then NormaliseAll(parsed.value, StartOfDay(now)) else None;
              && (repaired.None? ==> r == ParseSimpleTasks(text, context, now))
              && (repaired.Some? ==> r == FinalFilter(repaired.value, StartOfDay(now)))
  {
    var todayStart := StartOfDay(now);
    match ExtractBracketed(text, '[', ']')
    case None => ParseSimpleTasks(text, context, now)
    case Some(json) =>
      match parse(json)
      case None => ParseSimpleTasks(text, context, now)
      case Some(items) =>
        match NormaliseAll(items, todayStart)
        case None => ParseSimpleTasks(text, context, now)
        case Some(ts) =>
          NormalisedDates(items, todayStart);
          FinalFilter(ts, todayStart)
  }

  /** A supplied date inside the window is one the repair keeps. */
  lemma InWindowKept(t: RawTask, todayStart: int)
    requires InWindow(t, todayStart)
    ensures KeepsSupplied(t.dueDate.value, todayStart)
  {
    var ms := t.dueDate.value.ms;
    DueDate.DayCount(ms - todayStart, DayOffset(ms, todayStart));
  }

  /**
    A reply whose bracketed span parses to objects that are all dated inside
    the window comes back as exactly those tasks, in order.
  */
  lemma GenerateTasksKeepsDatedReply(text: string, context: string, now: int, parse: string -> Option<seq<Item>>,
                                     items: seq<Item>)
    requires ExtractBracketed(text, '[', ']').Some?
    requires parse(ExtractBracketed(text, '[', ']').value) == Some(items)
    requires forall i :: 0 <= i < |items| ==> items[i].Obj? && InWindow(items[i].task, StartOfDay(now))
    ensures var r := GenerateTasks(text, context, now, parse);
            |r| == |items| && forall i :: 0 <= i < |items| ==> r[i] == items[i].task
  {
    var todayStart := StartOfDay(now);
    var ts := NormaliseAll(items, todayStart).value;
    forall i | 0 <= i < |items| ensures ts[i] == items[i].task && InWindow(ts[i], todayStart) {
      InWindowKept(items[i].task, todayStart);
    }
    FinalFilterKeepsWindow(ts, todayStart);
  }

  // ----- Recommendations and the fixed fallback records -----

  /** `getTaskRecommendations`: the first three non-empty trimmed lines of the reply. */
  function Recommendations(text: string): (r: seq<string>)
    ensures |r| <= 3
    ensures forall l :: l in r ==> |l| > 0 && l in TrimmedLines(text)
    ensures var all := Filter(TrimmedLines(text), Text.NonEmpty());
            |r| == Min(|all|, 3) && r == all[..|r|]
  {
    var all := Filter(TrimmedLines(text), Text.NonEmpty());
    var r := all[..Min(|all|, 3)];
    assert forall l :: l in r ==> l in all;
    r
  }

  datatype Breakdown = Breakdown(
    subtasks: seq<string>,
    estimatedTime: int,
    priority: Priority,
    category: string,
    tags: seq<string>)

  /** `generateSmartTaskBreakdown`: the parsed `{...}` span, or a one-step plan when there is none. */
  function SmartBreakdown(text: string, title: string, parse: string -> Option<Breakdown>): (r: Breakdown)
    ensures (forall i, j :: 0 <= i < j < |text| ==> !(text[i] == '{' && text[j] == '}'))
              ==> r == Breakdown(["Break down: " + title], 60, Medium, "General", ["breakdown"])
    ensures r == Breakdown(["Break down: " + title], 60, Medium, "General", ["breakdown"])
            || exists json :: parse(json) == Some(r)
    ensures ExtractBracketed(text, '{', '}').Some? ==>
              var parsed := parse(ExtractBracketed(text, '{', '}').value);
              && (parsed.Some? ==> r == parsed.value)
              && (parsed.None? ==> r == Breakdown(["Break down: " + title], 60, Medium, "General", ["breakdown"]))
  {
    var fallback := Breakdown(["Break down: " + title], 60, Medium, "General", ["breakdown"]);
    match ExtractBracketed(text, '{', '}')
    case Some(json) => parse(json).GetOr(fallback)
    case None => fallback
  }

  /** A reply holding one object between brace-free text is that object, when it parses. */
  lemma SmartBreakdownOfWrapped(pre: string, json: string, post: string, title: string,
                                parse: string -> Option<Breakdown>)
    requires |json| >= 2 && json[0] == '{' && json[|json| - 1] == '}'
    requires '{' !in pre && '}' !in post
    requires parse(json).Some?
    ensures SmartBreakdown(pre + json + post, title, parse) == parse(json).value
  {
    ExtractSurrounded(pre, json, post, '{', '}');
  }

  datatype Improvements = Improvements(
    improvedTitle: string,
    improvedDescription: string,
    suggestions: seq<string>)

  /** `suggestTaskImprovements`: the parsed `{...}` span, or the task unchanged with three stock suggestions. */
  function SuggestImprovements(text: string, title: string, description: string, parse: string -> Option<Improvements>)
    : (r: Improvements)
    ensures (forall i, j :: 0 <= i < j < |text| ==> !(text[i] == '{' && text[j] == '}'))
              ==> r == Improvements(title, description,
                     ["Consider adding specific deadlines", "Break into smaller steps", "Define success criteria"])
    ensures ExtractBracketed(text, '{', '}').Some? ==>
              var parsed := parse(ExtractBracketed(text, '{', '}').value);
              && (parsed.Some? ==> r == parsed.value)
              && (parsed.None? ==> r == Improvements(title, description,
                     ["Consider adding specific deadlines", "Break into smaller steps", "Define success criteria"]))
    ensures r.improvedTitle == title || exists json :: parse(json) == Some(r)
  {
    var fallback := Improvements(title, description,
      ["Consider adding specific deadlines", "Break into smaller steps", "Define success criteria"]);
    match ExtractBracketed(text, '{', '}')
    case Some(json) => parse(json).GetOr(fallback)
    case None => fallback
  }

  /** A reply holding one object between brace-free text is that object, when it parses. */
  lemma SuggestImprovementsOfWrapped(pre: string, json: string, post: string, title: string, description: string,
                                     parse: string -> Option<Improvements>)
    requires |json| >= 2 && json[0] == '{' && json[|json| - 1] == '}'
    requires '{' !in pre && '}' !in post
    requires parse(json).Some?
    ensures SuggestImprovements(pre + json + post, title, description, parse) == parse(json).value
  {
    ExtractSurrounded(pre, json, post, '{', '}');
  }
}

=== FILE: seqs.dfy ===
/**
  Sequence operations the application performs through JavaScript's array
  methods: `filter`, a stable `sort` by a numeric key, and de-duplication in
  first-occurrence order (`Array.from(new Set(...))`).
*/
module Seqs {

  /** `a` occurs in `b` in the same order, possibly with gaps. */
  predicate IsSubsequence<T(==)>(a: seq<T>, b: seq<T>)
    decreases |b|
  {
    if |a| == 0 then true
    else if |b| == 0 then false
    else if a[0] == b[0] then IsSubsequence(a[1..], b[1..])
    else IsSubsequence(a, b[1..])
  }

  predicate NoDuplicates<T(==)>(s: seq<T>) {
    forall i, j :: 0 <= i < j < |s| ==> s[i] != s[j]
  }

  /** `Array.prototype.filter`: the elements satisfying `p`, in their original order. */
  function Filter<T(==,!new)>(s: seq<T>, p: T -> bool): (r: seq<T>)
    ensures |r| <= |s|
    ensures forall x :: x in r <==> x in s && p(x)
    ensures IsSubsequence(r, s)
  {
    if |s| == 0 then []
    else
      var rest := Filter(s[1..], p);
      if p(s[0]) then
        [s[0]] + rest
      else
        assert |rest| > 0 ==> rest[0] in rest;
        rest
  }

  /** Filtering keeps every copy of each element that passes, and no copy of one that fails. */
  lemma {:induction false} FilterMultiplicity<T(!new)>(s: seq<T>, p: T -> bool)
    ensures forall x :: multiset(Filter(s, p))[x] == if p(x) then multiset(s)[x] else 0
  {
    if |s| > 0 {
      FilterMultiplicity(s[1..], p);
      assert s == [s[0]] + s[1..];
    }
  }

  /** Filtering by `p` and then by `q` is filtering once by their conjunction. */
  lemma {:induction false} FilterFilter<T(!new)>(s: seq<T>, p: T -> bool, q: T -> bool, both: T -> bool)
    requires forall x :: both(x) == (p(x) && q(x))
    ensures Filter(Filter(s, p), q) == Filter(s, both)
  {
    if |s| > 0 {
      FilterFilter(s[1..], p, q, both);
      if p(s[0]) {
        assert Filter(s, p) == [s[0]] + Filter(s[1..], p);
        assert Filter(s, p)[1..] == Filter(s[1..], p);
      }
    }
  }

  /** Filtering keeps a sequence whole exactly when every element passes. */
  lemma {:induction false} FilterKeepsAll<T(!new)>(s: seq<T>, p: T -> bool)
    ensures Filter(s, p) == s <==> forall x :: x in s ==> p(x)
  {
    if |s| > 0 {
      FilterKeepsAll(s[1..], p);
      if !p(s[0]) {
        assert |Filter(s, p)| < |s|;
      }
    }
  }

  /** Filtering distributes over concatenation. */
  lemma {:induction false} FilterConcat<T(!new)>(a: seq<T>, b: seq<T>, p: T -> bool)
    ensures Filter(a + b, p) == Filter(a, p) + Filter(b, p)
  {
    if |a| > 0 {
      assert (a + b)[1..] == a[1..] + b;
      FilterConcat(a[1..], b, p);
    } else {
      assert a + b == b;
    }
  }

  /** A subsequence of a duplicate-free sequence is duplicate-free. */
  lemma {:induction false} SubsequenceNoDuplicates<T>(a: seq<T>, b: seq<T>)
    requires IsSubsequence(a, b) && NoDuplicates(b)
    ensures NoDuplicates(a)
    decreases |b|
  {
    if |a| > 0 && |b| > 0 {
      assert NoDuplicates(b[1..]) by {
        forall i, j | 0 <= i < j < |b| - 1 ensures b[1..][i] != b[1..][j] {
          assert b[1..][i] == b[i + 1] && b[1..][j] == b[j + 1];
        }
      }
      if a[0] == b[0] {
        SubsequenceNoDuplicates(a[1..], b[1..]);
        SubsequenceMembers(a[1..], b[1..]);
        forall j | 0 < j < |a| ensures a[0] != a[j] {
          assert a[j] == a[1..][j - 1];
          assert a[j] in b[1..];
          var k :| 0 <= k < |b[1..]| && b[1..][k] == a[j];
          assert b[k + 1] == a[j];
        }
      } else {
        SubsequenceNoDuplicates(a, b[1..]);
      }
    }
  }

  /** Every element of a subsequence is an element of the whole. */
  lemma {:induction false} SubsequenceMembers<T>(a: seq<T>, b: seq<T>)
    requires IsSubsequence(a, b)
    ensures forall x :: x in a ==> x in b
    decreases |b|
  {
    if |a| > 0 && |b| > 0 {
      if a[0] == b[0] {
        SubsequenceMembers(a[1..], b[1..]);
        forall x | x in a ensures x in b {
          if x != a[0] {
            assert x in a[1..];
          }
        }
      } else {
        SubsequenceMembers(a, b[1..]);
      }
    }
  }

  // ----- Stable sorting by an integer key -----

  /** Keys never decrease along `s`. */
  predicate SortedBy<T>(s: seq<T>, key: T -> int) {
    forall i, j :: 0 <= i < j < |s| ==> key(s[i]) <= key(s[j])
  }

  /** The elements of `s` whose key is `k` (a named predicate, so that lemmas can refer to it). */
  function HasKey<T>(key: T -> int, k: int): T -> bool {
    x => key(x) == k
  }

  /** Inserts `x` before the first element whose key is not smaller than `key(x)`. */
  function Insert<T>(x: T, s: seq<T>, key: T -> int): (r: seq<T>)
    requires SortedBy(s, key)
    ensures SortedBy(r, key)
    ensures multiset(r) == multiset(s) + multiset{x}
    ensures |r| == |s| + 1
    ensures |s| > 0 ==> forall j :: 0 <= j < |r| ==> r[j] == x || key(s[0]) <= key(r[j])
  {
    if |s| == 0 then [x]
    else if key(x) <= key(s[0]) then [x] + s
    else
      var rest := Insert(x, s[1..], key);
      InsertBehind(x, s, key, rest);
      [s[0]] + rest
  }

  /** Putting the head of `s` before the insertion into its tail keeps the order and the contents. */
  lemma InsertBehind<T>(x: T, s: seq<T>, key: T -> int, rest: seq<T>)
    requires |s| > 0 && SortedBy(s, key) && key(s[0]) < key(x)
    requires SortedBy(rest, key) && multiset(rest) == multiset(s[1..]) + multiset{x}
    ensures SortedBy([s[0]] + rest, key)
    ensures multiset([s[0]] + rest) == multiset(s) + multiset{x}
    ensures forall j :: 0 <= j < |rest| + 1 ==> ([s[0]] + rest)[j] == x || key(s[0]) <= key(([s[0]] + rest)[j])
  {
    assert s == [s[0]] + s[1..];
    forall j | 0 <= j < |rest| ensures rest[j] == x || key(s[0]) <= key(rest[j]) {
      assert rest[j] in multiset(rest);
      if rest[j] != x {
        assert rest[j] in multiset(s[1..]);
        var k :| 0 <= k < |s[1..]| && s[1..][k] == rest[j];
        assert s[k + 1] == rest[j];
      }
    }
    var r := [s[0]] + rest;
    forall i, j | 0 <= i < j < |r| ensures key(r[i]) <= key(r[j]) {
      assert r[j] == rest[j - 1];
      if i > 0 {
        assert r[i] == rest[i - 1];
      }
    }
  }

  /**
    Insertion sort. Placing each element before its equal-keyed successors
    makes the sort stable, as `Array.prototype.sort` is required to be.
  */
  function SortBy<T>(s: seq<T>, key: T -> int): (r: seq<T>)
    ensures SortedBy(r, key)
    ensures multiset(r) == multiset(s)
    ensures |r| == |s|
  {
    if |s| == 0 then []
    else
      assert s == [s[0]] + s[1..];
      Insert(s[0], SortBy(s[1..], key), key)
  }

  lemma {:induction false} InsertStable<T(!new)>(x: T, s: seq<T>, key: T -> int, k: int)
    requires SortedBy(s, key)
    ensures Filter(Insert(x, s, key), HasKey(key, k))
         == (if key(x) == k then [x] else []) + Filter(s, HasKey(key, k))
  {
    var p := HasKey(key, k);
    if |s| == 0 {
      assert Insert(x, s, key) == [x] + [];
      FilterCons(x, [], p);
    } else if key(x) <= key(s[0]) {
      assert Insert(x, s, key) == [x] + s;
      FilterCons(x, s, p);
    } else {
      InsertStable(x, s[1..], key, k);
      var rest := Insert(x, s[1..], key);
      assert Insert(x, s, key) == [s[0]] + rest;
      InsertBehindStable(x, s, key, k, rest);
    }
  }

  /** The step of `InsertStable` where `x` goes behind the head: the two cannot share the key `k`. */
  lemma InsertBehindStable<T(!new)>(x: T, s: seq<T>, key: T -> int, k: int, rest: seq<T>)
    requires |s| > 0 && key(s[0]) < key(x)
    requires Filter(rest, HasKey(key, k)) == (if key(x) == k then [x] else []) + Filter(s[1..], HasKey(key, k))
    ensures Filter([s[0]] + rest, HasKey(key, k))
         == (if key(x) == k then [x] else []) + Filter(s, HasKey(key, k))
  {
    var p := HasKey(key, k);
    var tail := Filter(s[1..], p);
    FilterCons(s[0], rest, p);
    assert s == [s[0]] + s[1..];
    FilterCons(s[0], s[1..], p);
    if p(s[0]) {
      assert key(x) != k;
      assert Filter(rest, p) == tail;
      assert Filter(s, p) == [s[0]] + tail;
    } else {
      assert Filter(s, p) == tail;
    }
  }

  /** Filtering a sequence with a known head. */
  lemma FilterCons<T(!new)>(a: T, t: seq<T>, p: T -> bool)
    ensures Filter([a] + t, p) == (if p(a) then [a] else []) + Filter(t, p)
  {
    assert ([a] + t)[1..] == t;
  }

  /**
    Stability: among the elements that share a key, the sorted sequence keeps
    their original relative order.
  */
  lemma {:induction false} SortByStable<T(!new)>(s: seq<T>, key: T -> int, k: int)
    ensures Filter(SortBy(s, key), HasKey(key, k)) == Filter(s, HasKey(key, k))
  {
    if |s| > 0 {
      SortByStable(s[1..], key, k);
      InsertStable(s[0], SortBy(s[1..], key), key, k);
    }
  }

  // ----- De-duplication in first-occurrence order -----

  /** Reference definition: each element at the position where it first occurs. */
  function FirstOccurrences<T(==,!new)>(s: seq<T>): (r: seq<T>)
    ensures forall x :: x in r <==> x in s
    ensures NoDuplicates(r)
    decreases |s|
  {
    if |s| == 0 then []
    else
      var init := s[..|s| - 1];
      var r := FirstOccurrences(init);
      assert s == init + [s[|s| - 1]];
      if s[|s| - 1] in init then r else r + [s[|s| - 1]]
  }

  /** `Array.from(new Set(s))`: one pass with a set of the elements already emitted. */
  method DistinctInOrder<T(==,!new)>(s: seq<T>) returns (r: seq<T>)
    ensures r == FirstOccurrences(s)
    ensures NoDuplicates(r)
    ensures forall x :: x in r <==> x in s
  {
    r := [];
    var seen: set<T> := {};
    var i := 0;
    while i < |s|
      invariant 0 <= i <= |s|
      invariant r == FirstOccurrences(s[..i])
      invariant forall x :: x in seen <==> x in s[..i]
    {
      assert s[..i + 1][..i] == s[..i];
      if s[i] !in seen {
        r := r + [s[i]];
        seen := seen + {s[i]};
      }
      assert s[..i + 1] == s[..i] + [s[i]];
      i := i + 1;
    }
    assert s[..|s|] == s;
  }

  /** `s.map(f)`: `f` applied to each element, in order. */
  function Map<A, B>(s: seq<A>, f: A -> B): (r: seq<B>)
    ensures |r| == |s|
    ensures forall i :: 0 <= i < |s| ==> r[i] == f(s[i])
    ensures forall y :: y in r ==> exists x :: x in s && y == f(x)
  {
    seq(|s|, i requires 0 <= i < |s| => f(s[i]))
  }
}

=== FILE: server.dfy ===
/**
  The HTTP server's decision logic (server/index.js) over an in-memory store
  of accounts and task documents. Each route is a function from the store
  and the request to the new store and the response.

  Database ids are drawn from one counter; an id travels as its canonical
  decimal text, and text that is not one fails to cast (Mongoose's
  CastError), which the handlers report as a 500. Password hashing and
  checking, token signing and token verification are parameters, as is the
  clock (`now`).
*/
module Server {
  import opened Wrappers
  import opened Types
  import opened Seqs
  import Text

  // ----- Store -----

  datatype Account = Account(key: nat, email: string, passwordHash: string, name: string, createdAt: int)

  /** A task document; `task.dbId` is the text of `key`, `task.userId` the owner's id. */
  datatype Doc = Doc(key: nat, task: Task)

  datatype Store = Store(accounts: seq<Account>, docs: seq<Doc>, nextKey: nat)

  function IdText(key: nat): Id {
    Text.ShowNat(key)
  }

  /** The store's invariant: ids below the counter and pairwise distinct, emails unique, every task owned. */
  predicate Valid(s: Store) {
    && (forall i :: 0 <= i < |s.accounts| ==> s.accounts[i].key < s.nextKey)
    && (forall i, j :: 0 <= i < j < |s.accounts| ==>
          s.accounts[i].key != s.accounts[j].key && s.accounts[i].email != s.accounts[j].email)
    && (forall i :: 0 <= i < |s.docs| ==>
          && s.docs[i].key < s.nextKey
          && s.docs[i].task.dbId == Some(IdText(s.docs[i].key))
          && s.docs[i].task.userId.Some?)
    && (forall i, j :: 0 <= i < j < |s.docs| ==> s.docs[i].key != s.docs[j].key)
  }

  const Empty: Store := Store([], [], 0)

  lemma EmptyValid()
    ensures Valid(Empty)
  {
  }

  // ----- Responses -----

  datatype UserView = UserView(id: Id, email: string, name: string)

  datatype Body =
    | Message(text: string)
    | Session(token: string, user: UserView)
    | ProfileBody(user: UserView, createdAt: int)
    | Record(task: Task)
    | Records(tasks: seq<Task>)

  datatype Response = Response(code: int, body: Body)

  /** The store after a request and the response sent. */
  datatype Served = Served(store: Store, response: Response)

  const ServerError: Response := Response(500, Message("Server error"))
  const TaskNotFound: Response := Response(404, Message("Task not found"))

  /** The claims a valid token carries. */
  datatype Claims = Claims(userId: Id, email: string)

  // ----- Authentication -----

  /** `authHeader && authHeader.split(' ')[1]`: the second space-separated piece, if present and not empty. */
  function BearerToken(header: Option<string>): (r: Option<string>)
    ensures r.Some? ==> r.value != "" && ' ' !in r.value
    ensures header.None? || header == Some("") ==> r.None?
  {
    match header
    case None => None
    case Some(h) =>
      var pieces := Text.Split(h, ' ');
      if |pieces| >= 2 && pieces[1] != "" then Some(pieces[1]) else None
  }

  /** The header `Bearer <token>` yields the token. */
  lemma BearerTokenOf(token: string)
    requires token != "" && ' ' !in token
    ensures BearerToken(Some("Bearer " + token)) == Some(token)
  {
    var pieces := ["Bearer", token];
    Text.SplitJoin(pieces, ' ');
    assert Text.Join(pieces, ' ') == "Bearer " + token;
  }

  /** `authenticateToken`: 401 without a token, 403 when verification fails, else the claims. */
  function Authenticate(header: Option<string>, verify: string -> Option<Claims>): (r: Result)
    ensures BearerToken(header).None? <==> r == Denied(Response(401, Message("Access token required")))
    ensures (BearerToken(header).Some? && verify(BearerToken(header).value).None?)
            <==> r == Denied(Response(403, Message("Invalid or expired token")))
    ensures r.Passed? <==> BearerToken(header).Some? && verify(BearerToken(header).value).Some?
    ensures r.Passed? ==> Some(r.claims) == verify(BearerToken(header).value)
  {
    match BearerToken(header)
    case None => Denied(Response(401, Message("Access token required")))
    case Some(token) =>
      match verify(token)
      case None => Denied(Response(403, Message("Invalid or expired token")))
      case Some(claims) => Passed(claims)
  }

  datatype Result = Passed(claims: Claims) | Denied(response: Response)

  // ----- Accounts -----

  /** The position of the account registered under `email`, if any. */
  function FindEmail(accounts: seq<Account>, email: string): (r: Option<nat>)
    ensures r.Some? ==> r.value < |accounts| && accounts[r.value].email == email
    ensures r.None? ==> forall i :: 0 <= i < |accounts| ==> accounts[i].email != email
  {
    if |accounts| == 0 then None
    else if accounts[0].email == email then Some(0)
    else match FindEmail(accounts[1..], email)
      case Some(i) => Some(i + 1)
      case None => None
  }

  /** The position of the account with database key `key`, if any. */
  function FindAccount(accounts: seq<Account>, key: nat): (r: Option<nat>)
    ensures r.Some? ==> r.value < |accounts| && accounts[r.value].key == key
    ensures r.None? ==> forall i :: 0 <= i < |accounts| ==> accounts[i].key != key
  {
    if |accounts| == 0 then None
    else if accounts[0].key == key then Some(0)
    else match FindAccount(accounts[1..], key)
      case Some(i) => Some(i + 1)
      case None => None
  }

  function View(a: Account): UserView {
    UserView(IdText(a.key), a.email, a.name)
  }

  /**
    `POST /api/auth/register`: 400 when a field is missing or the email is
    taken; otherwise a new account with the hashed password and a session.
  */
  function Register(s: Store, email: Option<string>, password: Option<string>, name: Option<string>,
                    hash: string -> string, sign: (Id, string) -> string, now: int): (r: Served)
    ensures !Truthy(email) || !Truthy(password) || !Truthy(name) ==>
              r == Served(s, Response(400, Message("All fields are required")))
    ensures Truthy(email) && (exists i :: 0 <= i < |s.accounts| && s.accounts[i].email == email.value) ==>
              r.store == s && r.response.code == 400
    ensures Truthy(email) && Truthy(password) && Truthy(name)
            && (exists i :: 0 <= i < |s.accounts| && s.accounts[i].email == email.value)
            ==> r == Served(s, Response(400, Message("User already exists")))
    ensures Truthy(email) && Truthy(password) && Truthy(name)
            && (forall i :: 0 <= i < |s.accounts| ==> s.accounts[i].email != email.value)
            ==> r.response.code == 201
    ensures r.response.code == 201 <==> r.store != s
    ensures r.response.code == 201 ==>
              && r.store.docs == s.docs && r.store.nextKey == s.nextKey + 1
              && r.store.accounts == s.accounts + [Account(s.nextKey, email.value, hash(password.value), name.value, now)]
              && r.response.body == Session(sign(IdText(s.nextKey), email.value), UserView(IdText(s.nextKey), email.value, name.value))
  {
    if !Truthy(email) || !Truthy(password) || !Truthy(name) then
      Served(s, Response(400, Message("All fields are required")))
    else if FindEmail(s.accounts, email.value).Some? then
      Served(s, Response(400, Message("User already exists")))
    else
      var a := Account(s.nextKey, email.value, hash(password.value), name.value, now);
      Served(s.(accounts := s.accounts + [a], nextKey := s.nextKey + 1),
             Response(201, Session(sign(IdText(a.key), a.email), View(a))))
  }

  /**
    `POST /api/auth/login`: the store never changes; an unknown email and a
    wrong password get the same answer.
  */
  function Login(s: Store, email: Option<string>, password: Option<string>,
                 check: (string, string) -> bool, sign: (Id, string) -> string): (r: Response)
    ensures !Truthy(email) || !Truthy(password) ==> r == Response(400, Message("Email and password are required"))
    ensures r.code == 200 ==>
              exists i :: 0 <= i < |s.accounts| && s.accounts[i].email == email.value
                          && check(password.value, s.accounts[i].passwordHash)
    ensures (Truthy(email) && Truthy(password) && forall i :: 0 <= i < |s.accounts| ==> s.accounts[i].email != email.value)
            ==> r == Response(400, Message("Invalid credentials"))
    ensures r.code != 200 ==> r.code == 400
  {
    if !Truthy(email) || !Truthy(password) then
      Response(400, Message("Email and password are required"))
    else match FindEmail(s.accounts, email.value)
      case None => Response(400, Message("Invalid credentials"))
      case Some(i) =>
        var a := s.accounts[i];
        if !check(password.value, a.passwordHash) then Response(400, Message("Invalid credentials"))
        else Response(200, Session(sign(IdText(a.key), a.email), View(a)))
  }

  /** The first account with an email is the only one, in a valid store. */
  lemma EmailsUnique(s: Store, i: nat, email: string)
    requires Valid(s) && i < |s.accounts| && s.accounts[i].email == email
    ensures FindEmail(s.accounts, email) == Some(i)
  {
  }

  /** In a valid store the right password for a registered email always logs in, as that account. */
  lemma LoginComplete(s: Store, i: nat, password: string, check: (string, string) -> bool,
                      sign: (Id, string) -> string)
    requires Valid(s) && i < |s.accounts| && s.accounts[i].email != "" && password != ""
    requires check(password, s.accounts[i].passwordHash)
    ensures var a := s.accounts[i];
            Login(s, Some(a.email), Some(password), check, sign)
              == Response(200, Session(sign(IdText(a.key), a.email), View(a)))
  {
    EmailsUnique(s, i, s.accounts[i].email);
  }

  /** Unknown email and wrong password are indistinguishable to the client. */
  lemma LoginFailuresAlike(s: Store, email: string, password: string, check: (string, string) -> bool,
                           sign: (Id, string) -> string)
    requires email != "" && password != ""
    ensures Login(s, Some(email), Some(password), check, sign).code != 200 ==>
              Login(s, Some(email), Some(password), check, sign) == Response(400, Message("Invalid credentials"))
  {
  }

  /** After registering, the same email and password log in, given a checker that accepts a password against its own hash. */
  lemma LoginAfterRegister(s: Store, email: string, password: string, name: string, hash: string -> string,
                           check: (string, string) -> bool, sign: (Id, string) -> string, now: int)
    requires Valid(s)
    requires email != "" && password != "" && name != ""
    requires check(password, hash(password))
    requires Register(s, Some(email), Some(password), Some(name), hash, sign, now).response.code == 201
    ensures var s' := Register(s, Some(email), Some(password), Some(name), hash, sign, now).store;
            Login(s', Some(email), Some(password), check, sign).code == 200
  {
    var s' := Register(s, Some(email), Some(password), Some(name), hash, sign, now).store;
    assert s'.accounts[|s.accounts|].email == email;
  }

  /** `GET /api/auth/profile`: the account of the token's user, without the password. */
  function Profile(s: Store, claims: Claims): (r: Response)
    ensures Text.ParseNat(claims.userId).None? ==> r == ServerError
    ensures r.code == 200 <==> exists i :: 0 <= i < |s.accounts| && IdText(s.accounts[i].key) == claims.userId
    ensures r.code == 200 ==> r.body.ProfileBody? && r.body.user.id == claims.userId
    ensures r.code == 200 ==>
              exists i :: 0 <= i < |s.accounts| && IdText(s.accounts[i].key) == claims.userId
                          && r.body == ProfileBody(View(s.accounts[i]), s.accounts[i].createdAt)
    ensures Text.ParseNat(claims.userId).Some? && r.code != 200 ==> r == Response(404, Message("User not found"))
    ensures r.code in {200, 404, 500}
  {
    match Text.ParseNat(claims.userId)
    case None => ServerError
    case Some(key) =>
      match FindAccount(s.accounts, key)
      case None =>
        assert forall i :: 0 <= i < |s.accounts| ==> IdText(s.accounts[i].key) != claims.userId by {
          forall i | 0 <= i < |s.accounts| ensures IdText(s.accounts[i].key) != claims.userId {
            Text.ParseShowNat(s.accounts[i].key);
          }
        }
        Response(404, Message("User not found"))
      case Some(i) =>
        var a := s.accounts[i];
        Response(200, ProfileBody(View(a), a.createdAt))
  }

  // ----- Tasks -----

  predicate Owns(d: Doc, owner: Id) {
    d.task.userId == Some(owner)
  }

  function OwnedBy(owner: Id): Doc -> bool {
    d => Owns(d, owner)
  }

  function TaskOf(d: Doc): Task {
    d.task
  }

  /** Newest first: sorting by the negated creation time. */
  function NewestFirstKey(t: Task): int {
    -t.createdAt
  }

  /** `GET /api/tasks`: the requester's tasks, newest first. */
  function ListTasks(s: Store, claims: Claims): (r: Response)
    ensures Text.ParseNat(claims.userId).None? ==> r == ServerError
    ensures Text.ParseNat(claims.userId).Some? ==>
              && r.code == 200 && r.body.Records?
              && multiset(r.body.tasks) == multiset(Map(Filter(s.docs, OwnedBy(claims.userId)), TaskOf))
              && (forall t :: t in r.body.tasks ==> t.userId == Some(claims.userId))
              && (forall i, j :: 0 <= i < j < |r.body.tasks| ==> r.body.tasks[i].createdAt >= r.body.tasks[j].createdAt)
  {
    if Text.ParseNat(claims.userId).None? then ServerError
    else
      var owned := Map(Filter(s.docs, OwnedBy(claims.userId)), TaskOf);
      var sorted := SortBy(owned, NewestFirstKey);
      NewestFirst(s.docs, claims.userId);
      Response(200, Records(sorted))
  }

  /** The requester's tasks, sorted newest first, are all theirs and in descending creation order. */
  lemma NewestFirst(docs: seq<Doc>, owner: Id)
    ensures var sorted := SortBy(Map(Filter(docs, OwnedBy(owner)), TaskOf), NewestFirstKey);
            && (forall t :: t in sorted ==> t.userId == Some(owner))
            && (forall i, j :: 0 <= i < j < |sorted| ==> sorted[i].createdAt >= sorted[j].createdAt)
  {
    var mine := Filter(docs, OwnedBy(owner));
    var owned := Map(mine, TaskOf);
    assert forall t :: t in owned ==> t.userId == Some(owner) by {
      forall t | t in owned ensures t.userId == Some(owner) {
        var d :| d in mine && t == TaskOf(d);
        assert OwnedBy(owner)(d);
      }
    }
    var sorted := SortBy(owned, NewestFirstKey);
    forall t | t in sorted ensures t.userId == Some(owner) {
      assert t in multiset(sorted);
    }
    forall i, j | 0 <= i < j < |sorted| ensures sorted[i].createdAt >= sorted[j].createdAt {
      assert NewestFirstKey(sorted[i]) <= NewestFirstKey(sorted[j]);
    }
  }

  /** The position of the task with key `key` owned by `owner` (`findOne({ _id, userId })`). */
  function FindOwned(docs: seq<Doc>, key: nat, owner: Id): (r: Option<nat>)
    ensures r.Some? ==> r.value < |docs| && docs[r.value].key == key && Owns(docs[r.value], owner)
    ensures r.None? ==> forall i :: 0 <= i < |docs| ==> !(docs[i].key == key && Owns(docs[i], owner))
  {
    if |docs| == 0 then None
    else if docs[0].key == key && Owns(docs[0], owner) then Some(0)
    else match FindOwned(docs[1..], key, owner)
      case Some(i) => Some(i + 1)
      case None => None
  }

  /** The body of `POST /api/tasks`; `None` is an absent or null field. */
  datatype NewTask = NewTask(
    title: Option<string>,
    description: Option<string>,
    priority: Option<string>,
    category: Option<string>,
    dueDate: Option<Instant>,
    estimatedTime: Option<int>,
    tags: Option<seq<string>>,
    subtasks: Option<seq<Subtask>>,
    notes: Option<string>)

  /** A subtask document passes validation when its required `id` and `title` are non-empty. */
  predicate SubtaskValid(st: Subtask) {
    st.id != "" && st.title != ""
  }

  /**
    A stored document passes `save`'s validation: the required title is not
    empty and neither is any subtask's required id or title. A `PUT` does not
    run validators, so a stored document need not pass.
  */
  predicate Saveable(t: Task) {
    t.title != "" && forall st :: st in t.subtasks ==> SubtaskValid(st)
  }

  /** The document `save` would store, or `None` when validation or casting fails. */
  function Build(b: NewTask, owner: Id, key: nat, now: int): (r: Option<Task>)
    requires Truthy(b.title)
    ensures r.Some? <==>
              && ParsePriority(OrElse(b.priority, "medium")).Some?
              && b.dueDate != Some(InvalidDate)
              && forall st :: st in b.subtasks.GetOr([]) ==> SubtaskValid(st)
    ensures r.Some? ==>
              var t := r.value;
              && t.dbId == Some(IdText(key)) && t.userId == Some(owner) && t.id.None?
              && t.title == b.title.value && !t.completed
              && (Truthy(b.priority) ==> PriorityName(t.priority) == b.priority.value)
              && (!Truthy(b.priority) ==> t.priority == Medium)
              && (b.dueDate.Some? ==> t.dueDate == Some(b.dueDate.value.ms))
              && (b.dueDate.None? ==> t.dueDate.None?)
              && (b.estimatedTime.Some? && b.estimatedTime.value != 0 ==> t.estimatedTime == b.estimatedTime)
              && (b.estimatedTime.None? || b.estimatedTime == Some(0) ==> t.estimatedTime.None?)
              && t.category == OrElse(b.category, "General") && t.category != ""
              && t.description == OrElse(b.description, "") && t.notes == OrElse(b.notes, "")
              && t.tags == b.tags.GetOr([]) && t.subtasks == b.subtasks.GetOr([])
              && (t.estimatedTime.Some? ==> t.estimatedTime.value != 0)
              && t.createdAt == now && t.updatedAt == now
  {
    var subtasks := b.subtasks.GetOr([]);
    match ParsePriority(OrElse(b.priority, "medium"))
    case None => None
    case Some(p) =>
      if b.dueDate == Some(InvalidDate) then None
      else if exists st :: st in subtasks && !SubtaskValid(st) then None
      else
        Some(Task(
          Some(IdText(key)), None, Some(owner),
          b.title.value, OrElse(b.description, ""), false, p,
          OrElse(b.category, "General"),
          match b.dueDate
            case Some(At(ms)) => Some(ms)
            case _ => None,
          if b.estimatedTime == Some(0) then None else b.estimatedTime,
          b.tags.GetOr([]), subtasks, OrElse(b.notes, ""), now, now))
  }

  /**
    `POST /api/tasks`: 400 without a title; 500 when the document fails
    validation (a priority outside the three, an unparsable date, a subtask
    with an empty id or title); otherwise a new document owned by the
    requester, appended to the store.
  */
  function CreateTask(s: Store, claims: Claims, b: NewTask, now: int): (r: Served)
    ensures !Truthy(b.title) ==> r == Served(s, Response(400, Message("Title is required")))
    ensures r.response.code != 201 ==> r.store == s
    ensures r.response.code == 201 <==>
              Truthy(b.title) && Text.ParseNat(claims.userId).Some? && Build(b, claims.userId, s.nextKey, now).Some?
    ensures r.response.code == 201 ==>
              && r.store.accounts == s.accounts && r.store.nextKey == s.nextKey + 1
              && r.store.docs == s.docs + [Doc(s.nextKey, Build(b, claims.userId, s.nextKey, now).value)]
              && r.response.body == Record(Build(b, claims.userId, s.nextKey, now).value)
  {
    if !Truthy(b.title) then Served(s, Response(400, Message("Title is required")))
    else if Text.ParseNat(claims.userId).None? then Served(s, ServerError)
    else match Build(b, claims.userId, s.nextKey, now)
      case None => Served(s, ServerError)
      case Some(t) =>
        Served(s.(docs := s.docs + [Doc(s.nextKey, t)], nextKey := s.nextKey + 1), Response(201, Record(t)))
  }

  /** The body of `PUT /api/tasks/:id` as the client sends it: the editable fields, each optional. */
  datatype TaskPatch = TaskPatch(
    title: Option<string>,
    description: Option<string>,
    completed: Option<bool>,
    priority: Option<Priority>,
    category: Option<string>,
    dueDate: Option<Instant>,
    estimatedTime: Option<Option<int>>,
    tags: Option<seq<string>>,
    subtasks: Option<seq<Subtask>>,
    notes: Option<string>)

  /** `{ ...updates, updatedAt: new Date() }` applied to a document: present fields replace, the rest stay. */
  function Apply(t: Task, p: TaskPatch, now: int): (r: Task)
    requires p.dueDate != Some(InvalidDate)
    ensures r.dbId == t.dbId && r.id == t.id && r.userId == t.userId && r.createdAt == t.createdAt
    ensures r.updatedAt == now
    ensures p.dueDate.None? ==> r.dueDate == t.dueDate
    ensures p.dueDate.Some? ==> r.dueDate == Some(p.dueDate.value.ms)
    ensures r.title == p.title.GetOr(t.title) && r.completed == p.completed.GetOr(t.completed)
    ensures r.description == p.description.GetOr(t.description) && r.notes == p.notes.GetOr(t.notes)
    ensures r.priority == p.priority.GetOr(t.priority) && r.category == p.category.GetOr(t.category)
    ensures p.estimatedTime.Some? ==> r.estimatedTime == p.estimatedTime.value
    ensures p.estimatedTime.None? ==> r.estimatedTime == t.estimatedTime
    ensures r.tags == p.tags.GetOr(t.tags) && r.subtasks == p.subtasks.GetOr(t.subtasks)
  {
    t.(title := p.title.GetOr(t.title),
       description := p.description.GetOr(t.description),
       completed := p.completed.GetOr(t.completed),
       priority := p.priority.GetOr(t.priority),
       category := p.category.GetOr(t.category),
       dueDate := if p.dueDate.Some? then Some(p.dueDate.value.ms) else t.dueDate,
       estimatedTime := if p.estimatedTime.Some? then p.estimatedTime.value else t.estimatedTime,
       tags := p.tags.GetOr(t.tags),
       subtasks := p.subtasks.GetOr(t.subtasks),
       notes := p.notes.GetOr(t.notes),
       updatedAt := now)
  }

  /** Looks up the requester's task `id`: a malformed id is a 500, a task missing or owned by someone else a 404. */
  function Locate(s: Store, claims: Claims, id: string): (r: Either)
    ensures r.Found? ==> r.index < |s.docs| && Owns(s.docs[r.index], claims.userId)
                         && Text.ParseNat(id) == Some(s.docs[r.index].key)
    ensures r.Missing? ==> r.response == ServerError || r.response == TaskNotFound
    ensures Text.ParseNat(id).None? || Text.ParseNat(claims.userId).None? ==> r == Missing(ServerError)
    ensures Text.ParseNat(id).Some? && Text.ParseNat(claims.userId).Some? ==>
              && (r.Found? <==> exists i :: 0 <= i < |s.docs| && s.docs[i].key == Text.ParseNat(id).value
                                            && Owns(s.docs[i], claims.userId))
              && (r.Missing? ==> r.response == TaskNotFound)
  {
    match Text.ParseNat(id)
    case None => Missing(ServerError)
    case Some(key) =>
      if Text.ParseNat(claims.userId).None? then Missing(ServerError)
      else match FindOwned(s.docs, key, claims.userId)
        case None => Missing(TaskNotFound)
        case Some(i) => Found(i)
  }

  datatype Either = Found(index: nat) | Missing(response: Response)

  /** In a valid store, `Locate` misses only when no task of the requester has that id. */
  lemma LocateComplete(s: Store, claims: Claims, id: string, i: nat)
    requires Valid(s)
    requires i < |s.docs| && Owns(s.docs[i], claims.userId) && s.docs[i].task.dbId == Some(id)
    requires Text.ParseNat(claims.userId).Some?
    ensures Locate(s, claims, id) == Found(i)
  {
    Text.ParseShowNat(s.docs[i].key);
  }

  /**
    `PUT /api/tasks/:id`: the requester's task receives the patch; 404 for a
    task that is missing or someone else's, 500 for a malformed id or date.
  */
  function UpdateTask(s: Store, claims: Claims, id: string, p: TaskPatch, now: int): (r: Served)
    ensures r.response.code != 200 ==> r.store == s
    ensures r.response.code in {200, 404, 500}
    ensures p.dueDate == Some(InvalidDate) ==> r == Served(s, ServerError)
    ensures p.dueDate != Some(InvalidDate) && Locate(s, claims, id).Missing? ==>
              r == Served(s, Locate(s, claims, id).response)
    ensures p.dueDate != Some(InvalidDate) && Locate(s, claims, id).Found? ==> r.response.code == 200
    ensures r.response.code == 200 ==> Locate(s, claims, id).Found?
    ensures r.response.code == 200 && Locate(s, claims, id).Found? ==>
              var i := Locate(s, claims, id).index;
              && r.store == s.(docs := s.docs[i := Doc(s.docs[i].key, Apply(s.docs[i].task, p, now))])
              && r.response.body == Record(Apply(s.docs[i].task, p, now))
  {
    if p.dueDate == Some(InvalidDate) then Served(s, ServerError)
    else match Locate(s, claims, id)
      case Missing(response) => Served(s, response)
      case Found(i) =>
        var t := Apply(s.docs[i].task, p, now);
        Served(s.(docs := s.docs[i := Doc(s.docs[i].key, t)]), Response(200, Record(t)))
  }

  /** `DELETE /api/tasks/:id`: the requester's task leaves the store. */
  function DeleteTask(s: Store, claims: Claims, id: string): (r: Served)
    ensures r.response.code != 200 ==> r.store == s
    ensures r.response.code in {200, 404, 500}
    ensures Locate(s, claims, id).Missing? ==> r == Served(s, Locate(s, claims, id).response)
    ensures Locate(s, claims, id).Found? ==> r.response.code == 200
    ensures r.response.code == 200 ==> Locate(s, claims, id).Found?
    ensures r.response.code == 200 && Locate(s, claims, id).Found? ==>
              var i := Locate(s, claims, id).index;
              && r.store == s.(docs := s.docs[..i] + s.docs[i + 1..])
              && r.response.body == Message("Task deleted successfully")
  {
    match Locate(s, claims, id)
    case Missing(response) => Served(s, response)
    case Found(i) =>
      Served(s.(docs := s.docs[..i] + s.docs[i + 1..]), Response(200, Message("Task deleted successfully")))
  }

  /**
    `PATCH /api/tasks/:id/toggle`: the requester's task flips its completion;
    500 when the flipped document fails `save`'s validation.
  */
  function ToggleTask(s: Store, claims: Claims, id: string, now: int): (r: Served)
    ensures r.response.code != 200 ==> r.store == s
    ensures r.response.code in {200, 404, 500}
    ensures r.response.code == 200 ==> Locate(s, claims, id).Found?
    ensures Locate(s, claims, id).Missing? ==> r == Served(s, Locate(s, claims, id).response)
    ensures Locate(s, claims, id).Found? ==>
              (r.response.code == 200 <==> Saveable(s.docs[Locate(s, claims, id).index].task))
    ensures Locate(s, claims, id).Found? && !Saveable(s.docs[Locate(s, claims, id).index].task) ==>
              r == Served(s, ServerError)
    ensures r.response.code == 200 && Locate(s, claims, id).Found? ==>
              var i := Locate(s, claims, id).index;
              && |r.store.docs| == |s.docs|
              && r.store.docs[i].task.completed == !s.docs[i].task.completed
              && r.store.docs[i] == Doc(s.docs[i].key, s.docs[i].task.(completed := !s.docs[i].task.completed, updatedAt := now))
              && (forall k :: 0 <= k < |s.docs| && k != i ==> r.store.docs[k] == s.docs[k])
              && r.response.body == Record(r.store.docs[i].task)
  {
    match Locate(s, claims, id)
    case Missing(response) => Served(s, response)
    case Found(i) =>
      if !Saveable(s.docs[i].task) then Served(s, ServerError)
      else
        var t := s.docs[i].task.(completed := !s.docs[i].task.completed, updatedAt := now);
        Served(s.(docs := s.docs[i := Doc(s.docs[i].key, t)]), Response(200, Record(t)))
  }

  /** The first subtask with id `subtaskId`. */
  function FindSubtask(subtasks: seq<Subtask>, subtaskId: Id): (r: Option<nat>)
    ensures r.Some? ==> r.value < |subtasks| && subtasks[r.value].id == subtaskId
                        && forall k :: 0 <= k < r.value ==> subtasks[k].id != subtaskId
    ensures r.None? ==> forall k :: 0 <= k < |subtasks| ==> subtasks[k].id != subtaskId
  {
    if |subtasks| == 0 then None
    else if subtasks[0].id == subtaskId then Some(0)
    else match FindSubtask(subtasks[1..], subtaskId)
      case Some(k) => Some(k + 1)
      case None => None
  }

  /** Flips the subtask at position `j` and stamps the task; the other subtasks are untouched. */
  function FlipSubtask(t: Task, j: nat, now: int): (r: Task)
    requires j < |t.subtasks|
    ensures |r.subtasks| == |t.subtasks|
    ensures r.subtasks[j].completed == !t.subtasks[j].completed
    ensures r.subtasks[j].id == t.subtasks[j].id && r.subtasks[j].title == t.subtasks[j].title
    ensures forall k :: 0 <= k < |t.subtasks| && k != j ==> r.subtasks[k] == t.subtasks[k]
    ensures r == t.(subtasks := r.subtasks, updatedAt := now)
  {
    var st := t.subtasks[j];
    t.(subtasks := t.subtasks[j := st.(completed := !st.completed)], updatedAt := now)
  }

  /**
    `PATCH /api/tasks/:taskId/subtasks/:subtaskId/toggle`: flips the first
    subtask with that id; 404 when the task or the subtask is missing, 500
    when the flipped document fails `save`'s validation.
  */
  function ToggleSubtask(s: Store, claims: Claims, taskId: string, subtaskId: Id, now: int): (r: Served)
    ensures r.response.code != 200 ==> r.store == s
    ensures r.response.code in {200, 404, 500}
    ensures Locate(s, claims, taskId).Found? &&
            (forall k :: 0 <= k < |s.docs[Locate(s, claims, taskId).index].task.subtasks| ==>
               s.docs[Locate(s, claims, taskId).index].task.subtasks[k].id != subtaskId)
            ==> r.response == Response(404, Message("Subtask not found"))
    ensures Locate(s, claims, taskId).Missing? ==> r == Served(s, Locate(s, claims, taskId).response)
    ensures Locate(s, claims, taskId).Found? &&
            FindSubtask(s.docs[Locate(s, claims, taskId).index].task.subtasks, subtaskId).Some? ==>
              (r.response.code == 200 <==> Saveable(s.docs[Locate(s, claims, taskId).index].task))
    ensures r.response.code == 200 ==> Locate(s, claims, taskId).Found?
    ensures r.response.code == 200 && Locate(s, claims, taskId).Found? ==>
              var i := Locate(s, claims, taskId).index;
              && FindSubtask(s.docs[i].task.subtasks, subtaskId).Some?
              && var j := FindSubtask(s.docs[i].task.subtasks, subtaskId).value;
                 && r.store == s.(docs := s.docs[i := Doc(s.docs[i].key, FlipSubtask(s.docs[i].task, j, now))])
                 && r.response.body == Record(r.store.docs[i].task)
  {
    match Locate(s, claims, taskId)
    case Missing(response) => Served(s, response)
    case Found(i) =>
      match FindSubtask(s.docs[i].task.subtasks, subtaskId)
      case None => Served(s, Response(404, Message("Subtask not found")))
      case Some(j) =>
        if !Saveable(s.docs[i].task) then Served(s, ServerError)
        else
          var t := FlipSubtask(s.docs[i].task, j, now);
          Served(s.(docs := s.docs[i := Doc(s.docs[i].key, t)]), Response(200, Record(t)))
  }

  // ----- Routing -----

  datatype Request =
    | RegisterReq(email: Option<string>, password: Option<string>, name: Option<string>)
    | LoginReq(loginEmail: Option<string>, loginPassword: Option<string>)
    | ProfileReq
    | ListReq
    | CreateReq(newTask: NewTask)
    | UpdateReq(id: string, patch: TaskPatch)
    | DeleteReq(deleteId: string)
    | ToggleReq(toggleId: string)
    | ToggleSubtaskReq(taskId: string, subtaskId: Id)

  /** What the server depends on but does not compute: the clock, bcrypt and JWT. */
  datatype Env = Env(
    now: int,
    hash: string -> string,
    check: (string, string) -> bool,
    sign: (Id, string) -> string,
    verify: string -> Option<Claims>)

  predicate Protected(req: Request) {
    !req.RegisterReq? && !req.LoginReq?
  }

  /** Every route: the public ones directly, the others behind `authenticateToken`. */
  function Handle(s: Store, header: Option<string>, req: Request, env: Env): (r: Served)
    ensures Protected(req) && Authenticate(header, env.verify).Denied? ==>
              r == Served(s, Authenticate(header, env.verify).response)
    ensures Protected(req) && BearerToken(header).None? ==> r.response.code == 401 && r.store == s
    ensures req.LoginReq? || req.ProfileReq? || req.ListReq? ==> r.store == s
  {
    match req
    case RegisterReq(email, password, name) => Register(s, email, password, name, env.hash, env.sign, env.now)
    case LoginReq(email, password) => Served(s, Login(s, email, password, env.check, env.sign))
    case _ =>
      match Authenticate(header, env.verify)
      case Denied(response) => Served(s, response)
      case Passed(claims) => Route(s, claims, req, env)
  }

  /** The protected routes, once the token has been verified. */
  function Route(s: Store, claims: Claims, req: Request, env: Env): (r: Served)
    requires Protected(req)
    ensures req.ProfileReq? || req.ListReq? ==> r.store == s
    ensures r.response.code != 200 && r.response.code != 201 ==> r.store == s
  {
    match req
    case ProfileReq => Served(s, Profile(s, claims))
    case ListReq => Served(s, ListTasks(s, claims))
    case CreateReq(b) => CreateTask(s, claims, b, env.now)
    case UpdateReq(id, p) => UpdateTask(s, claims, id, p, env.now)
    case DeleteReq(id) => DeleteTask(s, claims, id)
    case ToggleReq(id) => ToggleTask(s, claims, id, env.now)
    case ToggleSubtaskReq(taskId, subtaskId) => ToggleSubtask(s, claims, taskId, subtaskId, env.now)
  }

  // ----- Properties of the whole -----

  /** Every request keeps the store valid: ids stay distinct, emails unique, tasks owned. */
  lemma HandleKeepsValid(s: Store, header: Option<string>, req: Request, env: Env)
    requires Valid(s)
    ensures Valid(Handle(s, header, req, env).store)
  {
    match req
    case RegisterReq(email, password, name) =>
      RegisterKeepsValid(s, email, password, name, env.hash, env.sign, env.now);
    case LoginReq(_, _) =>
    case _ =>
      match Authenticate(header, env.verify)
      case Denied(_) =>
      case Passed(claims) =>
        RouteKeepsValid(s, claims, req, env);
  }

  lemma RouteKeepsValid(s: Store, claims: Claims, req: Request, env: Env)
    requires Valid(s) && Protected(req)
    ensures Valid(Route(s, claims, req, env).store)
  {
    match req
    case ProfileReq =>
    case ListReq =>
    case CreateReq(b) => CreateKeepsValid(s, claims, b, env.now);
    case UpdateReq(id, p) => UpdateKeepsValid(s, claims, id, p, env.now);
    case DeleteReq(id) => DeleteRouteKeepsValid(s, claims, id);
    case ToggleReq(id) => ToggleKeepsValid(s, claims, id, env.now);
    case ToggleSubtaskReq(taskId, subtaskId) => ToggleSubtaskKeepsValid(s, claims, taskId, subtaskId, env.now);
  }

  lemma RegisterKeepsValid(s: Store, email: Option<string>, password: Option<string>, name: Option<string>,
                           hash: string -> string, sign: (Id, string) -> string, now: int)
    requires Valid(s)
    ensures Valid(Register(s, email, password, name, hash, sign, now).store)
  {
  }

  lemma CreateKeepsValid(s: Store, claims: Claims, b: NewTask, now: int)
    requires Valid(s)
    ensures Valid(CreateTask(s, claims, b, now).store)
  {
    if CreateTask(s, claims, b, now).response.code == 201 {
      AppendKeepsValid(s, Doc(s.nextKey, Build(b, claims.userId, s.nextKey, now).value));
    }
  }

  /** Appending an owned document under the next key keeps the store valid. */
  lemma AppendKeepsValid(s: Store, d: Doc)
    requires Valid(s)
    requires d.key == s.nextKey && d.task.dbId == Some(IdText(d.key)) && d.task.userId.Some?
    ensures Valid(s.(docs := s.docs + [d], nextKey := s.nextKey + 1))
  {
    var docs := s.docs + [d];
    forall i | 0 <= i < |docs| ensures docs[i].key < s.nextKey + 1 {
      if i < |s.docs| {
        assert docs[i] == s.docs[i];
      }
    }
  }

  /** Rewriting one document's task, keeping its key, id and owner, keeps the store valid. */
  lemma ReplaceKeepsValid(s: Store, i: nat, t: Task)
    requires Valid(s) && i < |s.docs|
    requires t.dbId == s.docs[i].task.dbId && t.userId == s.docs[i].task.userId
    ensures Valid(s.(docs := s.docs[i := Doc(s.docs[i].key, t)]))
  {
  }

  lemma UpdateKeepsValid(s: Store, claims: Claims, id: string, p: TaskPatch, now: int)
    requires Valid(s)
    ensures Valid(UpdateTask(s, claims, id, p, now).store)
  {
    var r := UpdateTask(s, claims, id, p, now);
    if r.response.code == 200 {
      var i := Locate(s, claims, id).index;
      ReplaceKeepsValid(s, i, Apply(s.docs[i].task, p, now));
    }
  }

  lemma ToggleKeepsValid(s: Store, claims: Claims, id: string, now: int)
    requires Valid(s)
    ensures Valid(ToggleTask(s, claims, id, now).store)
  {
    var r := ToggleTask(s, claims, id, now);
    if r.response.code == 200 {
      var i := Locate(s, claims, id).index;
      ReplaceKeepsValid(s, i, s.docs[i].task.(completed := !s.docs[i].task.completed, updatedAt := now));
    }
  }

  lemma ToggleSubtaskKeepsValid(s: Store, claims: Claims, taskId: string, subtaskId: Id, now: int)
    requires Valid(s)
    ensures Valid(ToggleSubtask(s, claims, taskId, subtaskId, now).store)
  {
    var r := ToggleSubtask(s, claims, taskId, subtaskId, now);
    if r.response.code == 200 {
      var i := Locate(s, claims, taskId).index;
      var j := FindSubtask(s.docs[i].task.subtasks, subtaskId).value;
      ReplaceKeepsValid(s, i, FlipSubtask(s.docs[i].task, j, now));
    }
  }

  lemma DeleteRouteKeepsValid(s: Store, claims: Claims, id: string)
    requires Valid(s)
    ensures Valid(DeleteTask(s, claims, id).store)
  {
    var r := DeleteTask(s, claims, id);
    if r.response.code == 200 {
      DeleteKeepsValid(s, Locate(s, claims, id).index);
    }
  }

  lemma DeleteKeepsValid(s: Store, i: nat)
    requires Valid(s) && i < |s.docs|
    ensures Valid(s.(docs := s.docs[..i] + s.docs[i + 1..]))
  {
    var d := s.docs[..i] + s.docs[i + 1..];
    forall a, b | 0 <= a < b < |d| ensures d[a].key != d[b].key {
      var a' := if a < i then a else a + 1;
      var b' := if b < i then b else b + 1;
      assert d[a] == s.docs[a'] && d[b] == s.docs[b'];
    }
  }

  /**
    A request never touches another user's tasks: every document the
    requester does not own is still in the store afterwards, unchanged.
  */
  lemma OthersUntouched(s: Store, header: Option<string>, req: Request, env: Env, d: Doc)
    requires Protected(req) && Authenticate(header, env.verify).Passed?
    requires d in s.docs && !Owns(d, Authenticate(header, env.verify).claims.userId)
    ensures d in Handle(s, header, req, env).store.docs
  {
    var claims := Authenticate(header, env.verify).claims;
    var k :| 0 <= k < |s.docs| && s.docs[k] == d;
    RouteOthersUntouched(s, claims, req, env, k);
  }

  lemma RouteOthersUntouched(s: Store, claims: Claims, req: Request, env: Env, k: nat)
    requires Protected(req) && k < |s.docs| && !Owns(s.docs[k], claims.userId)
    ensures s.docs[k] in Route(s, claims, req, env).store.docs
  {
    match req
    case CreateReq(b) =>
      assert CreateTask(s, claims, b, env.now).store.docs[k] == s.docs[k];
    case UpdateReq(id, p) =>
      ReplacedOthersUntouched(s, claims, UpdateTask(s, claims, id, p, env.now), id, k);
    case DeleteReq(id) =>
      DeleteOthersUntouched(s, claims, id, k);
    case ToggleReq(id) =>
      ReplacedOthersUntouched(s, claims, ToggleTask(s, claims, id, env.now), id, k);
    case ToggleSubtaskReq(taskId, subtaskId) =>
      ReplacedOthersUntouched(s, claims, ToggleSubtask(s, claims, taskId, subtaskId, env.now), taskId, k);
    case ProfileReq =>
    case ListReq =>
  }

  /** A route that rewrites only the located document leaves other owners' documents in place. */
  lemma ReplacedOthersUntouched(s: Store, claims: Claims, r: Served, id: string, k: nat)
    requires k < |s.docs| && !Owns(s.docs[k], claims.userId)
    requires r.response.code != 200 ==> r.store == s
    requires r.response.code == 200 ==> Locate(s, claims, id).Found?
    requires r.response.code == 200 && Locate(s, claims, id).Found? ==>
               var i := Locate(s, claims, id).index;
               |r.store.docs| == |s.docs| && forall j :: 0 <= j < |s.docs| && j != i ==> r.store.docs[j] == s.docs[j]
    ensures s.docs[k] in r.store.docs
  {
    if r.response.code == 200 {
      assert r.store.docs[k] == s.docs[k];
    }
  }

  lemma DeleteOthersUntouched(s: Store, claims: Claims, id: string, k: nat)
    requires k < |s.docs| && !Owns(s.docs[k], claims.userId)
    ensures s.docs[k] in DeleteTask(s, claims, id).store.docs
  {
    var r := DeleteTask(s, claims, id);
    if r.response.code == 200 {
      var i := Locate(s, claims, id).index;
      if k < i { assert r.store.docs[k] == s.docs[k]; } else { assert r.store.docs[k - 1] == s.docs[k]; }
    }
  }

  /** Toggling a task twice restores its completion; only its modification time differs. */
  lemma ToggleTwice(s: Store, claims: Claims, id: string, now1: int, now2: int)
    requires Valid(s)
    requires ToggleTask(s, claims, id, now1).response.code == 200
    ensures var s1 := ToggleTask(s, claims, id, now1).store;
            var s2 := ToggleTask(s1, claims, id, now2).store;
            var i := Locate(s, claims, id).index;
            && ToggleTask(s1, claims, id, now2).response.code == 200
            && s2.docs == s.docs[i := Doc(s.docs[i].key, s.docs[i].task.(updatedAt := now2))]
  {
    var s1 := ToggleTask(s, claims, id, now1).store;
    var i := Locate(s, claims, id).index;
    assert Text.ParseNat(claims.userId).Some?;
    assert Valid(s1);
    LocateComplete(s1, claims, id, i);
  }
}

=== FILE: task_form.dfy ===
/**
  The task editor (TaskForm.tsx): the form state, its initialisation from a
  task, the submitted record, the tag and subtask editing actions, and the
  three assistant actions that merge a service reply into the form.

  The date input holds either nothing or a calendar date `YYYY-MM-DD`; the
  model keeps that date as its day number since the epoch. Both
  `toISOString` and `new Date("YYYY-MM-DD")` work in UTC, so no time zone
  enters here. A service call that throws (no key, a failed request) is a
  reply of `None`.
*/
module TaskForm {
  import opened Wrappers
  import opened Types
  import opened Seqs
  import Text
  import Gemini

  datatype FormData = FormData(
    title: string,
    description: string,
    priority: Priority,
    category: string,
    completed: bool,
    dueDay: Option<int>,
    estimatedTime: string,
    tags: seq<string>,
    subtasks: seq<Subtask>,
    notes: string)

  /** The form together with the suggestions shown under it. */
  datatype FormState = FormState(data: FormData, recommendations: seq<string>)

  const EmptyForm: FormData := FormData("", "", Medium, "", false, None, "", [], [], "")

  /**
    The form opened on `task`, or blank for a new task. A due date shows as
    its UTC calendar day; an estimated time of 0, being falsy, shows as an
    empty field.
  */
  function InitForm(task: Option<Task>): (st: FormState)
    ensures st.recommendations == []
    ensures task.None? ==> st.data == EmptyForm
    ensures task.Some? ==> st.data.tags == task.value.tags && st.data.subtasks == task.value.subtasks
    ensures task.Some? ==> (st.data.dueDay.Some? <==> task.value.dueDate.Some?)
    ensures task.Some? && task.value.dueDate.Some? ==>
              st.data.dueDay.Some? && var d := st.data.dueDay.value;
              d * DayMs <= task.value.dueDate.value < (d + 1) * DayMs
    ensures task.Some? ==> (st.data.estimatedTime == "" <==> task.value.estimatedTime in {None, Some(0)})
  {
    match task
    case None => FormState(EmptyForm, [])
    case Some(t) =>
      FormState(FormData(
        t.title, t.description, t.priority, t.category, t.completed,
        match t.dueDate
          case Some(ms) => Some(ms / DayMs)
          case None => None,
        match t.estimatedTime
          case Some(n) => if n == 0 then "" else Text.ShowInt(n)
          case None => "",
        t.tags, t.subtasks, t.notes), [])
  }

  /**
    The record `handleSubmit` sends: an empty date or time field is absent,
    a date is that day's UTC midnight, and a time is `parseInt` of the text,
    NaN when the text has no leading digits.
  */
  function Submit(f: FormData): (d: TaskDraft)
    ensures d.title == f.title && d.tags == f.tags && d.subtasks == f.subtasks
    ensures d.description == f.description && d.category == f.category
    ensures d.completed == f.completed && d.notes == f.notes
    ensures ParsePriority(d.priority) == Some(f.priority)
    ensures f.dueDay.None? <==> d.dueDate.None?
    ensures f.dueDay.Some? ==> d.dueDate.value % DayMs == 0 && d.dueDate.value / DayMs == f.dueDay.value
    ensures f.estimatedTime == "" <==> d.estimatedTime == NoEstimate
    ensures f.estimatedTime != "" && Text.ParseInt(f.estimatedTime).Some? ==>
              d.estimatedTime == Minutes(Text.ParseInt(f.estimatedTime).value)
    ensures f.estimatedTime != "" && Text.ParseInt(f.estimatedTime).None? ==> d.estimatedTime == NotANumber
  {
    ParsePriorityName(f.priority);
    TaskDraft(
      f.title, f.description, f.completed, PriorityName(f.priority), f.category,
      match f.dueDay
        case Some(day) => DayStart(day); Some(day * DayMs)
        case None => None,
      if f.estimatedTime == "" then NoEstimate
      else match Text.ParseInt(f.estimatedTime)
        case Some(n) => Minutes(n)
        case None => NotANumber,
      f.tags, f.subtasks, f.notes)
  }

  /** The midnight of a day number is a whole number of days, that day's. */
  lemma DayStart(day: int)
    ensures (day * DayMs) % DayMs == 0 && (day * DayMs) / DayMs == day
  {
    var q := (day * DayMs) / DayMs;
    var r := (day * DayMs) % DayMs;
    assert DayMs * (day - q) == r;
  }

  /**
    Opening a task and saving it unchanged sends back its fields, except that
    the due date is moved to midnight UTC of its day and an estimated time of
    0 is dropped.
  */
  lemma SubmitUnchanged(t: Task)
    ensures var d := Submit(InitForm(Some(t)).data);
            && d.title == t.title && d.description == t.description
            && d.priority == PriorityName(t.priority) && d.category == t.category
            && d.completed == t.completed && d.tags == t.tags
            && d.subtasks == t.subtasks && d.notes == t.notes
            && d.dueDate == (if t.dueDate.Some? then Some((t.dueDate.value / DayMs) * DayMs) else None)
            && d.estimatedTime == (if t.estimatedTime.None? || t.estimatedTime == Some(0) then NoEstimate
                                   else Minutes(t.estimatedTime.value))
  {
    if t.estimatedTime.Some? && t.estimatedTime.value != 0 {
      Text.ParseShow(t.estimatedTime.value);
      assert Text.ShowInt(t.estimatedTime.value) != "" by {
        var n := t.estimatedTime.value;
        assert |Text.ShowNat(if n < 0 then -n else n)| >= 1;
      }
    }
  }

  // ----- Tags -----

  /** `addTag`: the trimmed tag is appended unless it is empty or already present. */
  function AddTag(f: FormData, tag: string): (r: FormData)
    ensures r == f.(tags := r.tags)
    ensures Text.Trim(tag) != "" ==> Text.Trim(tag) in r.tags
    ensures Text.Trim(tag) == "" || Text.Trim(tag) in f.tags ==> r.tags == f.tags
    ensures |f.tags| <= |r.tags| <= |f.tags| + 1 && r.tags[..|f.tags|] == f.tags
  {
    var t := Text.Trim(tag);
    if t != "" && t !in f.tags then f.(tags := f.tags + [t]) else f
  }

  /** Adding the same tag twice is adding it once. */
  lemma AddTagIdempotent(f: FormData, tag: string)
    ensures AddTag(AddTag(f, tag), tag) == AddTag(f, tag)
  {
  }

  /** Adding tags never introduces a duplicate. */
  lemma AddTagKeepsDistinct(f: FormData, tag: string)
    requires NoDuplicates(f.tags)
    ensures NoDuplicates(AddTag(f, tag).tags)
  {
  }

  function Other(tag: string): string -> bool {
    x => x != tag
  }

  /** `removeTag`: every copy of the tag goes; the other tags keep their order. */
  function RemoveTag(f: FormData, tag: string): (r: FormData)
    ensures r == f.(tags := r.tags)
    ensures tag !in r.tags
    ensures forall x :: x in r.tags <==> x in f.tags && x != tag
    ensures IsSubsequence(r.tags, f.tags)
    ensures forall x :: multiset(r.tags)[x] == if x == tag then 0 else multiset(f.tags)[x]
  {
    FilterMultiplicity(f.tags, Other(tag));
    f.(tags := Filter(f.tags, Other(tag)))
  }

  /** Removing a tag just added restores the form. */
  lemma RemoveAddedTag(f: FormData, tag: string)
    requires Text.Trim(tag) != "" && Text.Trim(tag) !in f.tags
    ensures RemoveTag(AddTag(f, tag), Text.Trim(tag)) == f
  {
    var t := Text.Trim(tag);
    FilterConcat(f.tags, [t], Other(t));
    FilterKeepsAll(f.tags, Other(t));
    assert Filter([t], Other(t)) == [];
  }

  // ----- Subtasks -----

  /** `addSubtask`: an empty open subtask with a fresh id goes at the end. */
  function AddSubtask(f: FormData, id: Id): (r: FormData)
    ensures r == f.(subtasks := r.subtasks)
    ensures |r.subtasks| == |f.subtasks| + 1 && r.subtasks[..|f.subtasks|] == f.subtasks
    ensures r.subtasks[|f.subtasks|] == Subtask(id, "", false)
  {
    f.(subtasks := f.subtasks + [Subtask(id, "", false)])
  }

  function OtherId(id: Id): Subtask -> bool {
    (s: Subtask) => s.id != id
  }

  /** `removeSubtask`: the subtasks with that id go; the rest keep their order. */
  function RemoveSubtask(f: FormData, id: Id): (r: FormData)
    ensures r == f.(subtasks := r.subtasks)
    ensures forall s :: s in r.subtasks <==> s in f.subtasks && s.id != id
    ensures IsSubsequence(r.subtasks, f.subtasks)
    ensures forall s :: multiset(r.subtasks)[s] == if s.id == id then 0 else multiset(f.subtasks)[s]
  {
    FilterMultiplicity(f.subtasks, OtherId(id));
    f.(subtasks := Filter(f.subtasks, OtherId(id)))
  }

  /** Removing a subtask just added, under an id no other subtask has, restores the form. */
  lemma RemoveAddedSubtask(f: FormData, id: Id)
    requires forall s :: s in f.subtasks ==> s.id != id
    ensures RemoveSubtask(AddSubtask(f, id), id) == f
  {
    FilterConcat(f.subtasks, [Subtask(id, "", false)], OtherId(id));
    FilterKeepsAll(f.subtasks, OtherId(id));
    assert Filter([Subtask(id, "", false)], OtherId(id)) == [];
  }

  /** `Partial<Subtask>`: the fields an update sets. */
  datatype SubtaskPatch = SubtaskPatch(id: Option<Id>, title: Option<string>, completed: Option<bool>)

  function Patch(s: Subtask, p: SubtaskPatch): (r: Subtask)
    ensures p.id.None? ==> r.id == s.id
    ensures p.title.None? ==> r.title == s.title
    ensures p.completed.None? ==> r.completed == s.completed
    ensures p.id.Some? ==> r.id == p.id.value
    ensures p.title.Some? ==> r.title == p.title.value
    ensures p.completed.Some? ==> r.completed == p.completed.value
  {
    Subtask(p.id.GetOr(s.id), p.title.GetOr(s.title), p.completed.GetOr(s.completed))
  }

  /** `updateSubtask`: every subtask with that id is patched, the others stay as they are. */
  function UpdateSubtask(f: FormData, id: Id, p: SubtaskPatch): (r: FormData)
    ensures r == f.(subtasks := r.subtasks)
    ensures |r.subtasks| == |f.subtasks|
    ensures forall i :: 0 <= i < |f.subtasks| && f.subtasks[i].id != id ==> r.subtasks[i] == f.subtasks[i]
    ensures forall i :: 0 <= i < |f.subtasks| && f.subtasks[i].id == id ==> r.subtasks[i] == Patch(f.subtasks[i], p)
  {
    f.(subtasks := seq(|f.subtasks|, i requires 0 <= i < |f.subtasks| =>
                     if f.subtasks[i].id == id then Patch(f.subtasks[i], p) else f.subtasks[i]))
  }

  // ----- Assistant actions -----

  /** The assistant buttons do nothing while the title is blank. */
  predicate Blank(f: FormData) {
    Text.Trim(f.title) == ""
  }

  /** `getRecommendations`: the suggestions become the reply's first three lines. */
  function GetRecommendations(st: FormState, reply: Option<string>): (r: FormState)
    ensures Blank(st.data) || reply.None? ==> r == st
    ensures r.data == st.data
    ensures |r.recommendations| <= 3 || r.recommendations == st.recommendations
  {
    if Blank(st.data) then st
    else match reply
      case None => st
      case Some(text) => st.(recommendations := Gemini.Recommendations(text))
  }

  function NotIn(tags: seq<string>): string -> bool {
    x => x !in tags
  }

  /** The previous tags followed by the incoming ones not among them (`[...prev, ...tags.filter(...)]`). */
  function MergeTags(prev: seq<string>, incoming: seq<string>): (r: seq<string>)
    ensures |prev| <= |r| <= |prev| + |incoming| && r[..|prev|] == prev
    ensures forall x :: x in r <==> x in prev || x in incoming
    ensures IsSubsequence(r[|prev|..], incoming)
    ensures forall x :: multiset(r[|prev|..])[x] == if x in prev then 0 else multiset(incoming)[x]
  {
    var added := Filter(incoming, NotIn(prev));
    FilterMultiplicity(incoming, NotIn(prev));
    assert (prev + added)[..|prev|] == prev;
    assert (prev + added)[|prev|..] == added;
    prev + added
  }

  /** Open subtasks titled by `titles`, the `j`-th with id `newId(j)`. */
  function NewSubtasks(titles: seq<string>, newId: nat -> Id): (r: seq<Subtask>)
    ensures |r| == |titles|
    ensures forall j :: 0 <= j < |titles| ==> r[j] == Subtask(newId(j), titles[j], false)
  {
    seq(|titles|, j requires 0 <= j < |titles| => Subtask(newId(j), titles[j], false))
  }

  /**
    Merging a breakdown: priority, category and estimated time are replaced,
    the breakdown's tags not already on the form are appended, and each
    proposed step becomes an open subtask with the fresh id `newId(j)`.
  */
  function MergeBreakdown(f: FormData, b: Gemini.Breakdown, newId: nat -> Id): (r: FormData)
    ensures r.title == f.title && r.description == f.description && r.completed == f.completed
    ensures r.dueDay == f.dueDay && r.notes == f.notes
    ensures r.priority == b.priority && r.category == b.category
    ensures Text.ParseInt(r.estimatedTime) == Some(b.estimatedTime)
    ensures |f.tags| <= |r.tags| <= |f.tags| + |b.tags| && r.tags[..|f.tags|] == f.tags
    ensures forall x :: x in r.tags <==> x in f.tags || x in b.tags
    ensures |r.subtasks| == |f.subtasks| + |b.subtasks| && r.subtasks[..|f.subtasks|] == f.subtasks
    ensures forall j :: 0 <= j < |b.subtasks| ==>
              r.subtasks[|f.subtasks| + j] == Subtask(newId(j), b.subtasks[j], false)
    ensures r.tags == MergeTags(f.tags, b.tags)
  {
    assert Text.ParseInt(Text.ShowInt(b.estimatedTime)) == Some(b.estimatedTime) by {
      Text.ParseShow(b.estimatedTime);
    }
    var steps := NewSubtasks(b.subtasks, newId);
    var all := f.subtasks + steps;
    assert all[..|f.subtasks|] == f.subtasks && forall j :: 0 <= j < |steps| ==> all[|f.subtasks| + j] == steps[j];
    var tags := MergeTags(f.tags, b.tags);
    FormData(f.title, f.description, b.priority, b.category, f.completed, f.dueDay,
             Text.ShowInt(b.estimatedTime), tags, all, f.notes)
  }

  /** With duplicate-free tags on both sides, the merged tags are duplicate-free. */
  lemma MergeBreakdownDistinct(f: FormData, b: Gemini.Breakdown, newId: nat -> Id)
    requires NoDuplicates(f.tags) && NoDuplicates(b.tags)
    ensures NoDuplicates(MergeBreakdown(f, b, newId).tags)
  {
    var added := Filter(b.tags, NotIn(f.tags));
    SubsequenceNoDuplicates(added, b.tags);
    var all := f.tags + added;
    forall i, j | 0 <= i < j < |all| ensures all[i] != all[j] {
      if j >= |f.tags| && i < |f.tags| {
        assert all[j] in added;
        assert all[i] in f.tags;
      } else if i >= |f.tags| {
        assert all[i] == added[i - |f.tags|] && all[j] == added[j - |f.tags|];
      }
    }
  }

  /** `generateSmartBreakdown`: the reply's breakdown is merged into the form. */
  function GenerateSmartBreakdown(st: FormState, reply: Option<string>, parse: string -> Option<Gemini.Breakdown>,
                                  newId: nat -> Id): (r: FormState)
    ensures Blank(st.data) || reply.None? ==> r == st
    ensures r.recommendations == st.recommendations
    ensures r.data.title == st.data.title && r.data.description == st.data.description
    ensures forall x :: x in st.data.tags ==> x in r.data.tags
    ensures |r.data.subtasks| >= |st.data.subtasks| && r.data.subtasks[..|st.data.subtasks|] == st.data.subtasks
    ensures !Blank(st.data) && reply.Some? ==>
              r.data == MergeBreakdown(st.data, Gemini.SmartBreakdown(reply.value, st.data.title, parse), newId)
  {
    if Blank(st.data) then st
    else match reply
      case None => st
      case Some(text) =>
        st.(data := MergeBreakdown(st.data, Gemini.SmartBreakdown(text, st.data.title, parse), newId))
  }

  /** `suggestImprovements`: title and description are replaced and the suggestions shown. */
  function SuggestImprovements(st: FormState, reply: Option<string>, parse: string -> Option<Gemini.Improvements>)
    : (r: FormState)
    ensures Blank(st.data) || reply.None? ==> r == st
    ensures r.data == st.data.(title := r.data.title, description := r.data.description)
    ensures !Blank(st.data) && reply.Some? ==>
              var imp := Gemini.SuggestImprovements(reply.value, st.data.title, st.data.description, parse);
              && r.data.title == imp.improvedTitle && r.data.description == imp.improvedDescription
              && r.recommendations == imp.suggestions
  {
    if Blank(st.data) then st
    else match reply
      case None => st
      case Some(text) =>
        var imp := Gemini.SuggestImprovements(text, st.data.title, st.data.description, parse);
        FormState(st.data.(title := imp.improvedTitle, description := imp.improvedDescription), imp.suggestions)
  }

  /** A reply without a JSON object leaves title and description as they were and shows the three stock suggestions. */
  lemma SuggestImprovementsFallback(st: FormState, text: string, parse: string -> Option<Gemini.Improvements>)
    requires !Blank(st.data)
    requires forall i, j :: 0 <= i < j < |text| ==> !(text[i] == '{' && text[j] == '}')
    ensures var r := SuggestImprovements(st, Some(text), parse);
            && r.data == st.data
            && r.recommendations == ["Consider adding specific deadlines", "Break into smaller steps", "Define success criteria"]
  {
  }

  /** A reply holding one breakdown object between brace-free text merges that breakdown into the form. */
  lemma BreakdownReplyMerged(st: FormState, pre: string, json: string, post: string,
                             parse: string -> Option<Gemini.Breakdown>, newId: nat -> Id)
    requires !Blank(st.data)
    requires |json| >= 2 && json[0] == '{' && json[|json| - 1] == '}'
    requires '{' !in pre && '}' !in post
    requires parse(json).Some?
    ensures var r := GenerateSmartBreakdown(st, Some(pre + json + post), parse, newId);
            var b := parse(json).value;
            && r.data.priority == b.priority && r.data.category == b.category
            && Text.ParseInt(r.data.estimatedTime) == Some(b.estimatedTime)
            && r.data.tags == MergeTags(st.data.tags, b.tags)
            && r.data.subtasks == st.data.subtasks + NewSubtasks(b.subtasks, newId)
  {
    Gemini.SmartBreakdownOfWrapped(pre, json, post, st.data.title, parse);
    var r := GenerateSmartBreakdown(st, Some(pre + json + post), parse, newId);
    var b := parse(json).value;
    assert r.data.subtasks == st.data.subtasks + NewSubtasks(b.subtasks, newId);
  }

  /** A reply holding one improvements object between brace-free text puts its title, description and suggestions on show. */
  lemma ImprovementsReplyApplied(st: FormState, pre: string, json: string, post: string,
                                 parse: string -> Option<Gemini.Improvements>)
    requires !Blank(st.data)
    requires |json| >= 2 && json[0] == '{' && json[|json| - 1] == '}'
    requires '{' !in pre && '}' !in post
    requires parse(json).Some?
    ensures var r := SuggestImprovements(st, Some(pre + json + post), parse);
            var imp := parse(json).value;
            r == FormState(st.data.(title := imp.improvedTitle, description := imp.improvedDescription), imp.suggestions)
  {
    Gemini.SuggestImprovementsOfWrapped(pre, json, post, st.data.title, st.data.description, parse);
  }
}

=== FILE: task_list.dfy ===
/**
  The client's task list (useTasks.ts). Each action asks the server first and
  changes the list only when the reply succeeds; a failed request leaves the
  list as it was and is passed on to the caller. The server's reply is a
  parameter.
*/
module TaskList {
  import opened Wrappers
  import opened Types
  import opened Seqs

  /** A server reply: the value it returned, or the error the request raised. */
  datatype Reply<T> = Ok(value: T) | Failed

  /** The list after an action, and what the action gives back to its caller (a value or the re-raised error). */
  datatype Outcome<T> = Outcome(tasks: seq<Task>, result: Reply<T>)

  /** The hooks address a task by its database id or by its client id. */
  predicate Matches(t: Task, id: Id) {
    t.dbId == Some(id) || t.id == Some(id)
  }

  function Unmatched(id: Id): Task -> bool {
    t => !Matches(t, id)
  }

  /** `prev.map(task => matches ? updated : task)`. */
  function ReplaceMatching(tasks: seq<Task>, id: Id, updated: Task): (r: seq<Task>)
    ensures |r| == |tasks|
    ensures forall i :: 0 <= i < |tasks| && !Matches(tasks[i], id) ==> r[i] == tasks[i]
    ensures forall i :: 0 <= i < |tasks| && Matches(tasks[i], id) ==> r[i] == updated
  {
    seq(|tasks|, i requires 0 <= i < |tasks| => if Matches(tasks[i], id) then updated else tasks[i])
  }

  /** Replacing under an id no task has changes nothing. */
  lemma ReplaceAbsent(tasks: seq<Task>, id: Id, updated: Task)
    requires forall t :: t in tasks ==> !Matches(t, id)
    ensures ReplaceMatching(tasks, id, updated) == tasks
  {
  }

  /** `loadTasks` on sign-in, and the empty list on sign-out; a failed load keeps the current list. */
  function OnAuthChange(tasks: seq<Task>, authenticated: bool, fetched: Reply<seq<Task>>): (r: seq<Task>)
    ensures !authenticated ==> r == []
    ensures authenticated && fetched.Ok? ==> r == fetched.value
    ensures authenticated && fetched.Failed? ==> r == tasks
  {
    if !authenticated then []
    else match fetched
      case Ok(loaded) => loaded
      case Failed => tasks
  }

  /** `addTask`: the created task goes to the front. */
  function AddTask(tasks: seq<Task>, reply: Reply<Task>): (o: Outcome<Task>)
    ensures o.result == reply
    ensures reply.Failed? ==> o.tasks == tasks
    ensures reply.Ok? ==> |o.tasks| == |tasks| + 1 && o.tasks[0] == reply.value && o.tasks[1..] == tasks
  {
    match reply
    case Ok(created) => Outcome([created] + tasks, reply)
    case Failed => Outcome(tasks, reply)
  }

  /**
    `updateTask`, `toggleTask` and `toggleSubtask`: every task the id matches
    becomes the server's record (for `toggleSubtask` the id is the task's; the
    subtask id only travels to the server).
  */
  function ReplaceAction(tasks: seq<Task>, id: Id, reply: Reply<Task>): (o: Outcome<Task>)
    ensures o.result == reply
    ensures reply.Failed? ==> o.tasks == tasks
    ensures |o.tasks| == |tasks|
    ensures reply.Ok? ==> forall i :: 0 <= i < |tasks| ==>
              o.tasks[i] == (if Matches(tasks[i], id) then reply.value else tasks[i])
  {
    match reply
    case Ok(updated) => Outcome(ReplaceMatching(tasks, id, updated), reply)
    case Failed => Outcome(tasks, reply)
  }

  /** `deleteTask`: every task the id matches leaves the list; the rest keep their order. */
  function DeleteTask(tasks: seq<Task>, id: Id, reply: Reply<()>): (o: Outcome<()>)
    ensures o.result == reply
    ensures reply.Failed? ==> o.tasks == tasks
    ensures reply.Ok? ==> IsSubsequence(o.tasks, tasks)
    ensures reply.Ok? ==> forall t :: t in o.tasks <==> t in tasks && !Matches(t, id)
    ensures reply.Ok? ==> forall t :: multiset(o.tasks)[t] == if Matches(t, id) then 0 else multiset(tasks)[t]
  {
    match reply
    case Ok(_) =>
      FilterMultiplicity(tasks, Unmatched(id));
      Outcome(Filter(tasks, Unmatched(id)), reply)
    case Failed => Outcome(tasks, reply)
  }

  /** Deleting a task just created, under an id no other task has, restores the list. */
  lemma DeleteAdded(tasks: seq<Task>, created: Task, id: Id)
    requires Matches(created, id)
    requires forall t :: t in tasks ==> !Matches(t, id)
    ensures DeleteTask(AddTask(tasks, Ok(created)).tasks, id, Ok(())).tasks == tasks
  {
    assert AddTask(tasks, Ok(created)).tasks == [created] + tasks;
    FilterConcat([created], tasks, Unmatched(id));
    FilterKeepsAll(tasks, Unmatched(id));
    assert Filter([created], Unmatched(id)) == [];
  }
}

=== FILE: task_stats.dfy ===
/**
  The statistics panel (TaskStats.tsx): total, completed and pending counts,
  the completion rate in whole percent, and the open high-priority count.
*/
module TaskStats {
  import opened Types
  import opened Seqs

  function IsDone(): Task -> bool {
    (t: Task) => t.completed
  }

  function IsOpen(): Task -> bool {
    (t: Task) => !t.completed
  }

  function IsOpenHigh(): Task -> bool {
    (t: Task) => !t.completed && t.priority == High
  }

  function IsHigh(): Task -> bool {
    (t: Task) => t.priority == High
  }

  function IsOpenNotHigh(): Task -> bool {
    (t: Task) => !t.completed && t.priority != High
  }

  /** The number of completed tasks. */
  function CompletedCount(tasks: seq<Task>): (n: nat)
    ensures n <= |tasks|
    ensures n == 0 <==> forall t :: t in tasks ==> !t.completed
    ensures n == |tasks| <==> forall t :: t in tasks ==> t.completed
  {
    var done := Filter(tasks, IsDone());
    FilterKeepsAll(tasks, IsDone());
    assert |done| == |tasks| ==> done == tasks by {
      if |done| == |tasks| { LongestSubsequence(done, tasks); }
    }
    assert |done| == 0 <==> forall t :: t in tasks ==> !t.completed by {
      if |done| > 0 { assert done[0] in done; }
    }
    |done|
  }

  /** A subsequence as long as the whole is the whole. */
  lemma {:induction false} LongestSubsequence<T>(a: seq<T>, b: seq<T>)
    requires IsSubsequence(a, b) && |a| == |b|
    ensures a == b
    decreases |b|
  {
    if |a| > 0 {
      if a[0] == b[0] {
        LongestSubsequence(a[1..], b[1..]);
      } else {
        SubsequenceShorter(a, b[1..]);
      }
    }
  }

  lemma {:induction false} SubsequenceShorter<T>(a: seq<T>, b: seq<T>)
    requires IsSubsequence(a, b)
    ensures |a| <= |b|
    decreases |b|
  {
    if |a| > 0 && |b| > 0 {
      if a[0] == b[0] {
        SubsequenceShorter(a[1..], b[1..]);
      } else {
        SubsequenceShorter(a, b[1..]);
      }
    }
  }

  /** `tasks.length - completedTasks`: the open tasks. */
  function PendingCount(tasks: seq<Task>): (n: nat)
    ensures n + CompletedCount(tasks) == |tasks|
    ensures n == |Filter(tasks, IsOpen())|
  {
    PartitionCount(tasks);
    |tasks| - CompletedCount(tasks)
  }

  /** Every task is either completed or open. */
  lemma {:induction false} PartitionCount(tasks: seq<Task>)
    ensures |Filter(tasks, IsDone())| + |Filter(tasks, IsOpen())| == |tasks|
  {
    if |tasks| > 0 {
      PartitionCount(tasks[1..]);
    }
  }

  /**
    `Math.round(completed / total * 100)`, or 0 for no tasks: the whole
    percentage nearest to the exact rate, halves rounded up.
  */
  function RoundedPercent(done: nat, total: nat): (r: nat)
    requires done <= total
    ensures total == 0 ==> r == 0
    ensures total > 0 ==> 2 * total * r <= 200 * done + total < 2 * total * (r + 1)
    ensures r <= 100
    ensures total > 0 && done == total ==> r == 100
    ensures done == 0 ==> r == 0
  {
    if total == 0 then 0
    else
      var r := (200 * done + total) / (2 * total);
      RoundingBounds(done, total);
      r
  }

  /** The bounds of the rounded percentage, proved on the quotient itself. */
  lemma RoundingBounds(done: nat, total: nat)
    requires 0 < total && done <= total
    ensures var m := 2 * total;
            var x := 200 * done + total;
            var r := x / m;
            && 0 <= r && m * r <= x < m * (r + 1) && r <= 100
            && (done == total ==> r == 100) && (done == 0 ==> r == 0)
  {
    var m := 2 * total;
    var x := 200 * done + total;
    var r := x / m;
    DivBounds(x, m);
    assert x < m * 101;
    CancelFactor(m, r, 101);
    if done == total {
      QuotientUnique(m, x, r, 100);
    }
    if done == 0 {
      QuotientUnique(m, x, r, 0);
    }
  }

  /** Integer division brackets its dividend between two multiples of the divisor. */
  lemma DivBounds(x: nat, m: int)
    requires m > 0
    ensures 0 <= x / m && m * (x / m) <= x < m * (x / m + 1)
  {
    assert m * (x / m + 1) == m * (x / m) + m;
  }

  /** Only one quotient brackets a number between consecutive multiples. */
  lemma QuotientUnique(m: int, x: int, q1: int, q2: int)
    requires m > 0
    requires m * q1 <= x < m * (q1 + 1)
    requires m * q2 <= x < m * (q2 + 1)
    ensures q1 == q2
  {
    CancelFactor(m, q1, q2 + 1);
    CancelFactor(m, q2, q1 + 1);
  }

  /** Completing more of the same number of tasks never lowers the rate. */
  lemma RoundedPercentMonotone(c1: nat, c2: nat, total: nat)
    requires c1 <= c2 <= total
    ensures RoundedPercent(c1, total) <= RoundedPercent(c2, total)
  {
    if total > 0 {
      var r1 := RoundedPercent(c1, total);
      var r2 := RoundedPercent(c2, total);
      assert 2 * total * r1 <= 200 * c1 + total <= 200 * c2 + total < 2 * total * (r2 + 1);
      CancelFactor(2 * total, r1, r2 + 1);
    }
  }

  /** A positive factor can be cancelled from a strict inequality. */
  lemma CancelFactor(k: int, a: int, b: int)
    requires k > 0 && k * a < k * b
    ensures a < b
  {
    if a >= b {
      MulMonotone(k, b, a);
    }
  }

  lemma MulMonotone(k: int, a: int, b: int)
    requires k > 0 && a <= b
    ensures k * a <= k * b
  {
  }

  function CompletionRate(tasks: seq<Task>): (r: nat)
    ensures r <= 100
    ensures |tasks| == 0 ==> r == 0
    ensures |tasks| > 0 ==> 2 * |tasks| * r <= 200 * CompletedCount(tasks) + |tasks| < 2 * |tasks| * (r + 1)
  {
    RoundedPercent(CompletedCount(tasks), |tasks|)
  }

  /** The open tasks of high priority: the high-priority tasks among the pending ones. */
  function HighPriorityPending(tasks: seq<Task>): (n: nat)
    ensures n == |Filter(Filter(tasks, IsOpen()), IsHigh())|
    ensures n <= PendingCount(tasks)
    ensures n == 0 <==> forall t :: t in tasks ==> t.completed || t.priority != High
  {
    var high := Filter(tasks, IsOpenHigh());
    FilterFilter(tasks, IsOpen(), IsHigh(), IsOpenHigh());
    OpenSplit(tasks);
    assert |high| == 0 <==> forall t :: t in tasks ==> t.completed || t.priority != High by {
      if |high| > 0 { assert high[0] in high; }
    }
    |high|
  }

  /** The pending tasks split into those of high priority and the rest. */
  lemma {:induction false} HighPriorityPartition(tasks: seq<Task>)
    ensures HighPriorityPending(tasks) + |Filter(tasks, IsOpenNotHigh())| == PendingCount(tasks)
  {
    OpenSplit(tasks);
  }

  lemma {:induction false} OpenSplit(tasks: seq<Task>)
    ensures |Filter(tasks, IsOpenHigh())| + |Filter(tasks, IsOpenNotHigh())| == |Filter(tasks, IsOpen())|
  {
    if |tasks| > 0 {
      OpenSplit(tasks[1..]);
    }
  }
}

=== FILE: text.dfy ===
/**
  The JavaScript string operations the application relies on: `trim`,
  `split` on a single character, `includes`, `toLowerCase` and the regular
  expression `/^\d+\./`. Strings are sequences of Unicode scalar values.
*/
module Text {
  import opened Wrappers

  /** The characters `String.prototype.trim` removes: ECMAScript WhiteSpace and LineTerminator. */
  predicate IsSpace(c: char) {
    || c == ' ' || c == '\t' || c == '\n' || c == '\r'
    || c == '\U{000B}' || c == '\U{000C}' || c == '\U{00A0}' || c == '\U{1680}'
    || ('\U{2000}' <= c <= '\U{200A}')
    || c == '\U{2028}' || c == '\U{2029}' || c == '\U{202F}' || c == '\U{205F}'
    || c == '\U{3000}' || c == '\U{FEFF}'
  }

  predicate AllSpace(s: string) {
    forall i :: 0 <= i < |s| ==> IsSpace(s[i])
  }

  /** The position of the first character at or after `i` that is not white space, or `|s|`. */
  function SkipSpaces(s: string, i: nat): (j: nat)
    requires i <= |s|
    ensures i <= j <= |s|
    ensures forall k :: i <= k < j ==> IsSpace(s[k])
    ensures j == |s| || !IsSpace(s[j])
    decreases |s| - i
  {
    if i < |s| && IsSpace(s[i]) then SkipSpaces(s, i + 1) else i
  }

  /** The end of `s[lo..j]` once its trailing white space is cut off. */
  function SpacesBefore(s: string, lo: nat, j: nat): (k: nat)
    requires lo <= j <= |s|
    ensures lo <= k <= j
    ensures forall m :: k <= m < j ==> IsSpace(s[m])
    ensures k == lo || !IsSpace(s[k - 1])
  {
    if lo < j && IsSpace(s[j - 1]) then SpacesBefore(s, lo, j - 1) else j
  }

  /** `String.prototype.trimStart`, as `parseInt` applies it. */
  function TrimStart(s: string): (r: string)
    ensures |r| <= |s| && r == s[|s| - |r|..]
    ensures forall k :: 0 <= k < |s| - |r| ==> IsSpace(s[k])
    ensures |r| == 0 || !IsSpace(r[0])
  {
    s[SkipSpaces(s, 0)..]
  }

  /** `String.prototype.trim`: the infix left after removing surrounding white space. */
  function Trim(s: string): (r: string)
    ensures exists i, j :: && 0 <= i <= j <= |s| && r == s[i..j]
                           && (forall k :: 0 <= k < i ==> IsSpace(s[k]))
                           && (forall k :: j <= k < |s| ==> IsSpace(s[k]))
    ensures |r| == 0 || (!IsSpace(r[0]) && !IsSpace(r[|r| - 1]))
    ensures |r| == 0 <==> AllSpace(s)
  {
    var i := SkipSpaces(s, 0);
    var j := SpacesBefore(s, i, |s|);
    s[i..j]
  }

  /** Trimming twice is trimming once. */
  lemma TrimIdempotent(s: string)
    ensures Trim(Trim(s)) == Trim(s)
  {
    var t := Trim(s);
    if |t| > 0 {
      assert SkipSpaces(t, 0) == 0;
      assert SpacesBefore(t, 0, |t|) == |t|;
    }
  }

  // ----- Splitting on a separator character -----

  /** The position of the first `c` in `s`. */
  function IndexOf(s: string, c: char): (i: nat)
    requires c in s
    ensures i < |s| && s[i] == c && c !in s[..i]
    ensures forall k :: 0 <= k < i ==> s[k] != c
  {
    if s[0] == c then 0
    else
      var i := IndexOf(s[1..], c);
      assert s[1..][..i] == s[1..i + 1];
      i + 1
  }

  /** `s.split(sep)` for a one-character separator: at least one piece, none containing `sep`. */
  function Split(s: string, sep: char): (r: seq<string>)
    ensures |r| >= 1
    ensures forall k :: 0 <= k < |r| ==> sep !in r[k]
    decreases |s|
  {
    if sep in s then
      var i := IndexOf(s, sep);
      [s[..i]] + Split(s[i + 1..], sep)
    else [s]
  }

  /** `pieces.join(sep)`. */
  function Join(pieces: seq<string>, sep: char): string
    requires |pieces| >= 1
  {
    if |pieces| == 1 then pieces[0] else pieces[0] + [sep] + Join(pieces[1..], sep)
  }

  /** Joining the pieces of a split restores the original text. */
  lemma {:induction false} JoinSplit(s: string, sep: char)
    ensures Join(Split(s, sep), sep) == s
    decreases |s|
  {
    if sep in s {
      var i := IndexOf(s, sep);
      JoinSplit(s[i + 1..], sep);
      var r := Split(s, sep);
      assert r[1..] == Split(s[i + 1..], sep);
      assert s == s[..i] + [sep] + s[i + 1..];
    }
  }

  /** Splitting a join of separator-free pieces gives the pieces back. */
  lemma {:induction false} SplitJoin(pieces: seq<string>, sep: char)
    requires |pieces| >= 1
    requires forall k :: 0 <= k < |pieces| ==> sep !in pieces[k]
    ensures Split(Join(pieces, sep), sep) == pieces
  {
    if |pieces| > 1 {
      var s := Join(pieces, sep);
      var p := pieces[0];
      assert s == p + [sep] + Join(pieces[1..], sep);
      assert s[|p|] == sep;
      assert s[..|p|] == p;
      assert sep in s;
      var i := IndexOf(s, sep);
      assert i == |p|;
      assert s[i + 1..] == Join(pieces[1..], sep);
      SplitJoin(pieces[1..], sep);
    } else {
      assert Join(pieces, sep) == pieces[0];
    }
  }

  /** JavaScript truthiness of a string, as a filter predicate (`filter(Boolean)`). */
  function NonEmpty(): string -> bool {
    l => |l| > 0
  }

  /** The lines of a text, as `text.split('\n')`. */
  function Lines(text: string): seq<string> {
    Split(text, '\n')
  }

  // ----- Substrings and case -----

  predicate IsPrefix(p: string, s: string) {
    |p| <= |s| && s[..|p|] == p
  }

  /** `s.includes(sub)`. */
  predicate Contains(s: string, sub: string)
    decreases |s|
  {
    IsPrefix(sub, s) || (|s| > 0 && Contains(s[1..], sub))
  }

  /** `sub` occurs in `s` starting at position `i`. */
  predicate OccursAt(s: string, sub: string, i: int) {
    0 <= i <= |s| - |sub| && s[i..i + |sub|] == sub
  }

  /** `Contains` holds exactly when `sub` occurs at some position of `s`. */
  lemma {:induction false} ContainsIff(s: string, sub: string)
    ensures Contains(s, sub) <==> exists i :: OccursAt(s, sub, i)
    decreases |s|
  {
    if IsPrefix(sub, s) {
      assert OccursAt(s, sub, 0);
    }
    if |s| > 0 {
      ContainsIff(s[1..], sub);
      if Contains(s[1..], sub) {
        var i :| OccursAt(s[1..], sub, i);
        assert s[i + 1..i + 1 + |sub|] == s[1..][i..i + |sub|];
        assert OccursAt(s, sub, i + 1);
      }
      if exists i :: OccursAt(s, sub, i) {
        var i :| OccursAt(s, sub, i);
        if i > 0 {
          assert s[1..][i - 1..i - 1 + |sub|] == s[i..i + |sub|];
          assert OccursAt(s[1..], sub, i - 1);
        }
      }
    }
  }

  /** The empty string is contained in every string, as `s.includes('')` is always true. */
  lemma ContainsEmpty(s: string)
    ensures Contains(s, "")
  {
    assert IsPrefix("", s);
  }

  /** Lower-cases the ASCII letters; other characters are unchanged. */
  function LowerChar(c: char): (d: char)
    ensures 'A' <= c <= 'Z' ==> 'a' <= d <= 'z' && d as int == c as int + 32
    ensures !('A' <= c <= 'Z') ==> d == c
  {
    if 'A' <= c <= 'Z' then (c as int - 'A' as int + 'a' as int) as char else c
  }

  /**
    JavaScript's `length`: the number of UTF-16 code units, two for a
    character outside the Basic Multilingual Plane and one for any other.
  */
  function Utf16Length(s: string): (n: nat)
    ensures |s| <= n <= 2 * |s|
    ensures n == |s| <==> forall i :: 0 <= i < |s| ==> s[i] as int <= 0xFFFF
  {
    if |s| == 0 then 0
    else
      var rest := Utf16Length(s[1..]);
      assert forall i :: 1 <= i < |s| ==> s[i] == s[1..][i - 1];
      (if s[0] as int <= 0xFFFF then 1 else 2) + rest
  }

  /** The code units of a concatenation are those of its parts. */
  lemma {:induction false} Utf16LengthAppend(a: string, b: string)
    ensures Utf16Length(a + b) == Utf16Length(a) + Utf16Length(b)
  {
    if |a| > 0 {
      Utf16LengthAppend(a[1..], b);
      assert (a + b)[1..] == a[1..] + b;
    } else {
      assert a + b == b;
    }
  }

  /** `s.toLowerCase()` on ASCII letters. */
  function ToLower(s: string): (r: string)
    ensures |r| == |s|
    ensures forall i :: 0 <= i < |s| ==> r[i] == LowerChar(s[i])
    ensures forall i :: 0 <= i < |s| && 'A' <= s[i] <= 'Z' ==> r[i] as int == s[i] as int + 32
    ensures forall i :: 0 <= i < |s| && !('A' <= s[i] <= 'Z') ==> r[i] == s[i]
  {
    seq(|s|, i requires 0 <= i < |s| => LowerChar(s[i]))
  }

  // ----- The regular expression /^\d+\./ -----

  predicate IsDigit(c: char) {
    '0' <= c <= '9'
  }

  /** The number of ASCII digits at the start of `s`. */
  function LeadingDigits(s: string): (n: nat)
    ensures n <= |s|
    ensures forall i :: 0 <= i < n ==> IsDigit(s[i])
    ensures n == |s| || !IsDigit(s[n])
  {
    if |s| > 0 && IsDigit(s[0]) then 1 + LeadingDigits(s[1..]) else 0
  }

  /** `/^\d+\./.test(s)`: one or more digits followed by a full stop at the start. */
  predicate StartsWithNumbering(s: string) {
    var n := LeadingDigits(s);
    1 <= n < |s| && s[n] == '.'
  }

  /** `StartsWithNumbering` is the regular expression's meaning: some digit run then a full stop. */
  lemma StartsWithNumberingIff(s: string)
    ensures StartsWithNumbering(s)
        <==> exists k :: 1 <= k < |s| && s[k] == '.' && forall i :: 0 <= i < k ==> IsDigit(s[i])
  {
    var n := LeadingDigits(s);
    if exists k :: 1 <= k < |s| && s[k] == '.' && forall i :: 0 <= i < k ==> IsDigit(s[i]) {
      var k :| 1 <= k < |s| && s[k] == '.' && forall i :: 0 <= i < k ==> IsDigit(s[i]);
      assert n == k;
    }
  }

  // ----- Integer text: Number.prototype.toString and parseInt -----

  function DigitChar(d: int): char
    requires 0 <= d < 10
  {
    ('0' as int + d) as char
  }

  function DigitValue(c: char): (d: int)
    requires IsDigit(c)
    ensures 0 <= d < 10 && DigitChar(d) == c
  {
    c as int - '0' as int
  }

  /** The value of a run of decimal digits. */
  function DigitsValue(s: string): nat
    requires forall i :: 0 <= i < |s| ==> IsDigit(s[i])
  {
    if |s| == 0 then 0 else DigitsValue(s[..|s| - 1]) * 10 + DigitValue(s[|s| - 1])
  }

  /** The decimal numeral of a natural number: digits only, no leading zero, reading back as `n`. */
  function ShowNat(n: nat): (s: string)
    ensures |s| >= 1
    ensures forall i :: 0 <= i < |s| ==> IsDigit(s[i])
    ensures |s| > 1 ==> s[0] != '0'
    ensures DigitsValue(s) == n
  {
    if n < 10 then [DigitChar(n)]
    else
      var s := ShowNat(n / 10) + [DigitChar(n % 10)];
      assert s[..|s| - 1] == ShowNat(n / 10);
      s
  }

  /** `n.toString()` for an integer. */
  function ShowInt(n: int): string {
    if n < 0 then "-" + ShowNat(-n) else ShowNat(n)
  }

  /**
    `parseInt(s)`: leading white space, an optional sign, then the longest
    run of decimal digits; `None` (NaN) when there is no digit.
  */
  function ParseInt(s: string): (r: Option<int>)
    ensures (forall i :: 0 <= i < |s| ==> !IsDigit(s[i])) ==> r.None?
  {
    ParseSignedDigits(TrimStart(s))
  }

  /** The sign and digits `parseInt` reads once leading white space is gone. */
  function ParseSignedDigits(t: string): (r: Option<int>)
    ensures (forall i :: 0 <= i < |t| ==> !IsDigit(t[i])) ==> r.None?
  {
    var neg := |t| > 0 && t[0] == '-';
    var rest := if |t| > 0 && (t[0] == '-' || t[0] == '+') then t[1..] else t;
    var n := LeadingDigits(rest);
    if n == 0 then None
    else
      assert rest[0] in t;
      var v: int := DigitsValue(rest[..n]);
      Some(if neg then -v else v)
  }

  /** Reading back the text of an integer gives the integer. */
  lemma ParseShow(n: int)
    ensures ParseInt(ShowInt(n)) == Some(n)
  {
    if n < 0 {
      ParseNegative(ShowNat(-n));
    } else {
      ParseUnsigned(ShowNat(n));
    }
  }

  /** Digits alone read as their value. */
  lemma ParseUnsigned(digits: string)
    requires |digits| >= 1 && forall i :: 0 <= i < |digits| ==> IsDigit(digits[i])
    ensures ParseInt(digits) == Some(DigitsValue(digits))
  {
    DigitNotSpace(digits[0]);
    TrimStartKeeps(digits);
    assert ParseInt(digits) == ParseSignedDigits(digits);
    assert digits[0] != '-' && digits[0] != '+';
    LeadingAllDigits(digits);
    assert digits[..|digits|] == digits;
  }

  /** A minus sign followed by digits reads as their value negated. */
  lemma ParseNegative(digits: string)
    requires |digits| >= 1 && forall i :: 0 <= i < |digits| ==> IsDigit(digits[i])
    ensures ParseInt("-" + digits) == Some(0 - DigitsValue(digits) as int)
  {
    var s := "-" + digits;
    TrimStartKeeps(s);
    assert s[1..] == digits;
    LeadingAllDigits(digits);
    assert digits[..|digits|] == digits;
  }

  lemma TrimStartKeeps(s: string)
    requires |s| > 0 && !IsSpace(s[0])
    ensures TrimStart(s) == s
  {
    assert SkipSpaces(s, 0) == 0;
  }

  lemma LeadingAllDigits(s: string)
    requires forall i :: 0 <= i < |s| ==> IsDigit(s[i])
    ensures LeadingDigits(s) == |s|
  {
  }

  lemma DigitNotSpace(c: char)
    requires IsDigit(c)
    ensures !IsSpace(c)
  {
  }

  /** Canonical decimal text: digits only, and no leading zero unless it is `"0"`. */
  predicate IsCanonicalNat(s: string) {
    && |s| >= 1
    && (forall i :: 0 <= i < |s| ==> IsDigit(s[i]))
    && (|s| > 1 ==> s[0] != '0')
  }

  /** The number a canonical decimal text denotes, or `None` for any other text. */
  function ParseNat(s: string): (r: Option<nat>)
    ensures r.Some? <==> IsCanonicalNat(s)
    ensures r.Some? ==> ShowNat(r.value) == s
  {
    if IsCanonicalNat(s) then
      ShowDigits(s);
      Some(DigitsValue(s))
    else None
  }

  /** Printing the value of a canonical decimal text gives the text back. */
  lemma {:induction false} ShowDigits(s: string)
    requires IsCanonicalNat(s)
    ensures ShowNat(DigitsValue(s)) == s
    decreases |s|
  {
    if |s| > 1 {
      var init := s[..|s| - 1];
      assert init[0] == s[0];
      PositiveDigits(init);
      ShowDigits(init);
      var n := DigitsValue(s);
      assert n == DigitsValue(init) * 10 + DigitValue(s[|s| - 1]);
      assert n / 10 == DigitsValue(init) && n % 10 == DigitValue(s[|s| - 1]);
      assert s == init + [s[|s| - 1]];
    }
  }

  /** A digit run that starts with a non-zero digit has a positive value. */
  lemma {:induction false} PositiveDigits(s: string)
    requires |s| >= 1 && s[0] != '0'
    requires forall i :: 0 <= i < |s| ==> IsDigit(s[i])
    ensures DigitsValue(s) >= 1
    decreases |s|
  {
    if |s| > 1 {
      var init := s[..|s| - 1];
      assert init[0] == s[0];
      PositiveDigits(init);
    }
  }

  /** Parsing the text of a number gives the number: distinct numbers have distinct texts. */
  lemma ParseShowNat(n: nat)
    ensures ParseNat(ShowNat(n)) == Some(n)
  {
  }
}

=== FILE: types.dfy ===
/**
  The application's records (`Task`, `Subtask`) and the values shared by the
  client and the server. Times are integer milliseconds since the epoch.
*/
module Types {
  import opened Wrappers

  /** Identifiers: `crypto.randomUUID()` strings for subtasks, database ids for tasks. */
  type Id = string

  const DayMs: int := 86_400_000
  const HourMs: int := 3_600_000

  datatype Priority = Low | Medium | High

  /** The wire spelling of a priority. */
  function PriorityName(p: Priority): string {
    match p
    case Low => "low"
    case Medium => "medium"
    case High => "high"
  }

  /** The priority a string names, if any (Mongoose's `enum: ['low', 'medium', 'high']`). */
  function ParsePriority(s: string): (r: Option<Priority>)
    ensures r.Some? ==> PriorityName(r.value) == s
    ensures r.None? ==> forall p: Priority :: PriorityName(p) != s
  {
    if s == "low" then Some(Low)
    else if s == "medium" then Some(Medium)
    else if s == "high" then Some(High)
    else None
  }

  /** Naming a priority and parsing the name back gives the same priority. */
  lemma ParsePriorityName(p: Priority)
    ensures ParsePriority(PriorityName(p)) == Some(p)
  {
  }

  datatype Subtask = Subtask(id: Id, title: string, completed: bool)

  /**
    A task as the client holds it. `dbId` is the database's `_id`; `id` is the
    optional client-side id the hooks also match on. Optional list and text
    fields that every reader defaults with `|| []` or `|| ''` are held as
    empty values.
  */
  datatype Task = Task(
    dbId: Option<Id>,
    id: Option<Id>,
    userId: Option<Id>,
    title: string,
    description: string,
    completed: bool,
    priority: Priority,
    category: string,
    dueDate: Option<int>,
    estimatedTime: Option<int>,
    tags: seq<string>,
    subtasks: seq<Subtask>,
    notes: string,
    createdAt: int,
    updatedAt: int)

  /**
    The body the client sends to create a task (`Omit<Task, '_id' | 'id' |
    'userId' | 'createdAt' | 'updatedAt'>`). The priority is a string because
    the generator forwards whatever the model produced; the empty string
    stands for an absent text field.
  */
  datatype TaskDraft = TaskDraft(
    title: string,
    description: string,
    completed: bool,
    priority: string,
    category: string,
    dueDate: Option<int>,
    estimatedTime: Estimate,
    tags: seq<string>,
    subtasks: seq<Subtask>,
    notes: string)

  /**
    A draft's estimated time as the client holds it: `undefined`, which a
    request leaves out; `NaN`, which `JSON.stringify` sends as `null`; or a
    number of minutes.
  */
  datatype Estimate = NoEstimate | NotANumber | Minutes(minutes: int)

  /** A parsed date: a valid instant, or JavaScript's Invalid Date (time value NaN). */
  datatype Instant = At(ms: int) | InvalidDate

  /** JavaScript truthiness of an optional string: present and not empty. */
  predicate Truthy(s: Option<string>) {
    s.Some? && s.value != ""
  }

  /** JavaScript `s || fallback` for an optional string. */
  function OrElse(s: Option<string>, fallback: string): (r: string)
    ensures Truthy(s) ==> r == s.value
    ensures !Truthy(s) ==> r == fallback
  {
    if Truthy(s) then s.value else fallback
  }

  function Min(a: int, b: int): int {
    if a <= b then a else b
  }
}

=== FILE: wrappers.dfy ===
/** Optional values: JavaScript's `undefined`/`null` for a field or a lookup that found nothing. */
module Wrappers {

  datatype Option<+T> = None | Some(value: T) {

    /** The value, or `default` when there is none (JavaScript `x ?? default`). */
    function GetOr(default: T): T {
      match this
      case Some(v) => v
      case None => default
    }
  }
}
